=== FILE: README.md ===
# Kudu acceptor pool, table tool arguments and the restart script helpers

This project models three parts of Kudu in Dafny and proves properties of the models.

- **The RPC acceptor pool** (`src/kudu/rpc/acceptor_pool.cc`), as a sequential state machine.
  The pool owns a listening socket and a list of acceptor threads.
  - `Init(num_threads)` starts the threads one by one. The first failure shuts the pool down and returns that failure.
  - `Shutdown` runs once. It flips the `closing_` flag, asks for the socket to be shut down (a failure there is only logged), joins every recorded thread and clears the list.
  - Each iteration of a worker's `RunThread` loop accepts a connection, sets `TCP_NODELAY` on it, bumps the `rpc_connections_accepted` counter and hands the connection to the messenger.
  - Threads and the socket calls are not run. What each of them reports is an input to the model. The compare-and-swap on `closing_` is modelled by testing the flag and setting it in one step, since the model is sequential.
- **The `kudu table` tool actions** (`src/kudu/tools/tool_action_table.cc`):
  - the case-insensitive compression and encoding names;
  - the block-size check;
  - the order in which the column-alteration actions validate, connect and alter;
  - the range-partition filter of `describe`;
  - the replica role letter of `list`;
  - the destination defaults of `copy`;
  - the typed reading of JSON values in `ParseValueOfType`;
  - the error cascade of `locate_row`: key count, key types, tablet count, row existence.
- **The minos restart script** (`src/kudu/scripts/minos_control_server.py`), its pure helpers:
  - `get_host`;
  - the unhealthy-node set of `is_cluster_health`;
  - the wait of `wait_cluster_health`;
  - the answer and parameter checks of `check_parameter`;
  - `get_minos_type` with `os.path.dirname`;
  - the `--update_package` / `--confirm_install` flag augmentation;
  - the regular expression of `parse_node_from_minos_output`, written out as a matcher and proved equal to the pattern it implements.

Files:

| file | module | contents |
|---|---|---|
| `kudu_status.dfy` | `KuduStatus` | status codes, `Status`, `Result`, `Option` |
| `ascii.dfy` | `Ascii` | ASCII case mapping, stripping a character set, substring search |
| `acceptor_pool.dfy` | `AcceptorPool` | the acceptor pool |
| `table_args.dfy` | `TableArgs` | storage-attribute names, block size, alter ordering, describe/list/copy |
| `table_rows.dfy` | `TableRows` | JSON values of a column type, `locate_row` |
| `minos_output.dfy` | `MinosOutput` | `parse_node_from_minos_output` |
| `minos_control.dfy` | `MinosControl` | the other script helpers |

## Model

| member | source | states |
|---|---|---|
| AcceptorPool.Construct | src/kudu/rpc/acceptor_pool.cc:35-43 | A pool exists exactly when the messenger has a metric context; otherwise `CHECK_NOTNULL` aborts. A new pool is open, has no threads and the given bind address. Its counter starts at zero, counting only this pool's increments. |
| AcceptorPool.ConstructValid | src/kudu/rpc/acceptor_pool.cc:35-43 | A newly constructed pool satisfies the pool invariant: the counter equals the number of registered connections, a pool that is not closing has its socket open, and a closing pool holds no threads. |
| AcceptorPool.Shutdown | src/kudu/rpc/acceptor_pool.cc:63-80 | After Shutdown the pool is closing and the counter, registrations and bind address are unchanged. A second call changes nothing. The first call joins the recorded threads in order and leaves none recorded. The socket ends up down exactly when it was open and the socket shutdown call succeeded; a failed call is only warned about and the pool carries on closing. |
| AcceptorPool.ShutdownIdempotent | src/kudu/rpc/acceptor_pool.cc:63-68 | Shutting down twice is the same as shutting down once, whatever the second socket call would report, so no thread is joined twice. |
| AcceptorPool.ShutdownCloses | src/kudu/rpc/acceptor_pool.cc:63-80 | From any valid pool, Shutdown leaves it closing with no threads and keeps the invariant. The socket is down when the socket call succeeded on an open pool. On an already closing pool nothing changes. |
| AcceptorPool.Destroy | src/kudu/rpc/acceptor_pool.cc:45-47 | For a pool that is open or holds no threads, the destructor leaves the pool closing with no thread recorded, and every thread that was recorded is among the joined ones. The socket is down when the pool was open and the socket call succeeded. |
| AcceptorPool.FirstFailure | src/kudu/rpc/acceptor_pool.cc:50-57 | Finds the first thread creation that fails: every creation before it succeeded, and it failed unless it is the end of the range. |
| AcceptorPool.Init | src/kudu/rpc/acceptor_pool.cc:49-61 | If every creation succeeds, Init returns OK and records the handles in creation order. Otherwise it returns the first failing creation's error and shuts down a pool that holds the threads started before it; from an open pool that leaves it closing with no threads, and with the socket down when the socket call succeeded. A count of zero or less does nothing. From a pool that is not closing, Init keeps the invariant. On OK the thread list grows by the count. |
| AcceptorPool.FirstFailureSkips | src/kudu/rpc/acceptor_pool.cc:50-58 | Scanning from 0 finds the same first failure as scanning from any point before which all creations succeeded. |
| AcceptorPool.Step | src/kudu/rpc/acceptor_pool.cc:91-113 | One worker iteration stops exactly when accept fails while the pool is closing. It registers a connection exactly when both accept and no-delay succeed, and then the counter goes up by one. Every other outcome leaves the pool unchanged. |
| AcceptorPool.StepValid | src/kudu/rpc/acceptor_pool.cc:90-113 | A worker iteration keeps the invariant and leaves the flag, threads, socket and bind address unchanged. |
| AcceptorPool.AcceptOn | src/kudu/rpc/acceptor_pool.cc:70-72 | Once the socket is shut down, every accept fails. On an open socket, accept gives what the network delivers. |
| AcceptorPool.StepAfterShutdownStops | src/kudu/rpc/acceptor_pool.cc:96-100 | After a Shutdown whose socket call succeeded, a worker's next iteration leaves the loop whatever the network delivers. |
| AcceptorPool.StepAfterFailedShutdown | src/kudu/rpc/acceptor_pool.cc:72-74 | When the socket call fails, the pool is closing but its socket stays open. A worker then still registers a connection exactly when accept and no-delay succeed. It leaves the loop exactly when accept fails. |
| AcceptorPool.RunDelivers | src/kudu/rpc/acceptor_pool.cc:90-115 | Running the worker loop registers exactly the delivered connections of the iterations it took, in order. The counter rises by their number and the invariant holds. While the pool is open the loop never exits. |
| AcceptorPool.AllAcceptedDelivered | src/kudu/rpc/acceptor_pool.cc:104-112 | On an open pool where every accept and no-delay succeed, the messenger receives every connection, each with its remote address, in order, and the counter reads their number. |
| AcceptorPool.RunKeeps | src/kudu/rpc/acceptor_pool.cc:90-115 | The worker loop keeps the bind address and only appends to the registered connections. |
| AcceptorPool.Apply | src/kudu/rpc/acceptor_pool.cc:49-115 | Any sequence of Init, worker-loop and Shutdown steps keeps the bind address and never drops a registered connection. |
| AcceptorPool.BindAddressAfter | src/kudu/rpc/acceptor_pool.cc:82-84 | `bind_address()` returns the address given to the constructor, after any sequence of Init, worker-loop and Shutdown steps. |
| AcceptorPool.DeliveredAll | src/kudu/rpc/acceptor_pool.cc:104-112 | When every iteration succeeds, the delivered list has one entry per iteration, in the same order, holding that iteration's connection and remote address. |
| TableArgs.LookupUpper | src/kudu/tools/tool_action_table.cc:537-554 | The lookup succeeds exactly when the upper-cased argument is a key, and yields that key's entry. Otherwise it is InvalidArgument. |
| TableArgs.ParseCompression | src/kudu/tools/tool_action_table.cc:547-554 | An unknown compression name is an invalid argument. |
| TableArgs.CompressionTableExact | src/kudu/tools/tool_action_table.cc:540-545 | The compression table maps each compression type's name to that type and holds nothing else. |
| TableArgs.ParseCompressionIgnoresCase | src/kudu/tools/tool_action_table.cc:537-554 | The argument selects compression `c` exactly when it spells `c`'s name in any mix of ASCII cases. |
| TableArgs.CompressionRoundTrip | src/kudu/tools/tool_action_table.cc:537-548 | Each compression name, in upper or lower case, parses back to its type. |
| TableArgs.ParseEncoding | src/kudu/tools/tool_action_table.cc:578-585 | An unknown encoding name is an invalid argument. |
| TableArgs.EncodingTableExact | src/kudu/tools/tool_action_table.cc:570-576 | The encoding table maps each encoding type's name to that type and holds nothing else. |
| TableArgs.ParseEncodingIgnoresCase | src/kudu/tools/tool_action_table.cc:567-585 | The argument selects encoding `e` exactly when it spells `e`'s name in any mix of ASCII cases. |
| TableArgs.CompressionNameIsUpper | src/kudu/tools/tool_action_table.cc:540-545 | Every compression name is already upper case, so upper-casing it changes nothing. |
| TableArgs.EncodingNameIsUpper | src/kudu/tools/tool_action_table.cc:570-576 | Every encoding name is already upper case, so upper-casing it changes nothing. |
| TableArgs.ValidateBlockSize | src/kudu/tools/tool_action_table.cc:599-607 | A block size is accepted exactly when it is an integer in 1..2^31-1, and it is passed on unchanged. Non-numbers, out-of-range numbers and sizes of zero or less are InvalidArgument. |
| TableArgs.RunAlter | src/kudu/tools/tool_action_table.cc:549-560 | A validation error returns before any client exists. A failed connection returns its status and sends nothing. Otherwise the validated change is sent and the alter status is returned. |
| TableArgs.BlockSizeCheckedFirst | src/kudu/tools/tool_action_table.cc:594-614 | A bad block size is refused with InvalidArgument and no client is created. A good one is sent unchanged once a client connects. |
| TableArgs.StorageNamesCheckedFirst | src/kudu/tools/tool_action_table.cc:533-592 | An unknown compression or encoding name is refused with no client created. A known one, in any case, is sent as its table entry once a client connects. |
| TableArgs.RangePartitions | src/kudu/tools/tool_action_table.cc:177-190 | The kept partitions are no more than the listed ones, and each has every hash bucket 0. |
| TableArgs.RangePartitionsMembers | src/kudu/tools/tool_action_table.cc:177-184 | A partition is kept exactly when it is listed and all its hash buckets are 0. |
| TableArgs.RangePartitionsAppend | src/kudu/tools/tool_action_table.cc:177-190 | The filter keeps listing order: filtering a concatenation concatenates the filtered parts. |
| TableArgs.DescribePartitions | src/kudu/tools/tool_action_table.cc:176-190 | The loop with its `all_of` bucket test keeps exactly the partitions of the filter, in order. |
| TableArgs.RoleLetter | src/kudu/tools/tool_action_table.cc:126-129 | A replica prints "L" exactly when it is the leader, "V" exactly when it is a voter and not the leader, and "N" otherwise. |
| TableArgs.PlanCopy | src/kudu/tools/tool_action_table.cc:415-423 | The source client is reused exactly when the two master-address arguments are equal. The destination table is the source table when the `dst_table` flag is empty and the flag otherwise, so it is empty exactly when both are. |
| TableArgs.CopyOntoItself | src/kudu/tools/tool_action_table.cc:416-423 | With equal masters, the copy writes into its own source table exactly when `--dst_table` is empty or names the source table. |
| TableRows.ValueOfType | src/kudu/tools/tool_action_table.cc:447-494 | DECIMAL and unlisted types are NotSupported. Every other failure is InvalidArgument. An integer type accepts exactly a JSON integer in the 64-bit range; STRING and BINARY accept exactly a JSON string; BOOL accepts exactly a JSON boolean; FLOAT and DOUBLE accept exactly a JSON number written with a fraction or exponent. Integer types give a 64-bit integer, string and binary give a string, BOOL gives a boolean. A value read always writes back to the JSON it came from. |
| TableRows.ValueOfTypeRoundTrip | src/kudu/tools/tool_action_table.cc:447-487 | A value reads back from its own JSON form exactly when it fits the column type. |
| TableRows.ElementsOf | src/kudu/tools/tool_action_table.cc:433-438 | A parse error is passed through. The elements are read exactly when the root is an array, and a non-array root is InvalidArgument. |
| TableRows.ParseValueOfType | src/kudu/tools/tool_action_table.cc:430-496 | A parse error is passed through. A root that is not an array, or an array of other than one element, is InvalidArgument, checked before the type. One element is read as the column type. Success implies a one-element array. |
| TableRows.ParseValueOfTypeOutcomes | src/kudu/tools/tool_action_table.cc:439-494 | A wrong count is invalid for every type. One element of an unsupported type is NotSupported. A fitting value written as a one-element array is read back exactly. |
| TableRows.KeyPredicates | src/kudu/tools/tool_action_table.cc:227-310 | Predicates are built exactly when every key value reads as its column's type. There is then one equality predicate per key column, in key order, on that column's name with the value read. |
| TableRows.KeyPredicatesFirstError | src/kudu/tools/tool_action_table.cc:227-310 | The error returned is the one of the first key column whose value cannot be read. |
| TableRows.PickTablet | src/kudu/tools/tool_action_table.cc:324-338 | No token is NotFound and several tokens are IllegalState. Exactly one token gives its tablet. |
| TableRows.CheckRowExists | src/kudu/tools/tool_action_table.cc:353-363 | No row is NotFound, more than one is IllegalState, and exactly one is OK. |
| TableRows.LocateRow | src/kudu/tools/tool_action_table.cc:200-366 | A failure to open the table is returned as is. A wrong key count is InvalidArgument. A reported tablet is the single token for the key's predicates and, when existence is checked, exactly one row was found. |
| TableRows.DecimalKeyNotSupported | src/kudu/tools/tool_action_table.cc:297-308 | A DECIMAL or unlisted key column whose earlier key values read is NotSupported, whatever the tablets hold. |
| TableRows.LocateRowTokens | src/kudu/tools/tool_action_table.cc:312-365 | With every key value readable there is one predicate per key column. A failed token build passes its error on. No matching tablet is NotFound, several are IllegalState. With a single tablet and no `--check_row_existence`, that tablet is the answer. With the check on, the tablet is the answer exactly when the leader returns one row. No row is NotFound, several are IllegalState, and a failed scan passes its error on. |
| MinosOutput.Span | src/kudu/scripts/minos_control_server.py:102 | A greedy character-class run covers only class characters and ends at the end of the text or at a character outside the class. |
| MinosOutput.SpanExact | src/kudu/scripts/minos_control_server.py:102 | A run of class characters followed by a non-class character has exactly the length the greedy span measures. |
| MinosOutput.MatchAtSound | src/kudu/scripts/minos_control_server.py:102 | What the matcher reports at a position is a match of the pattern there, with that second group. |
| MinosOutput.MatchAtComplete | src/kudu/scripts/minos_control_server.py:102 | Every match of the pattern at a position is found by the matcher, with the same second group. |
| MinosOutput.MatchAtAgrees | src/kudu/scripts/minos_control_server.py:102 | The matcher reports a host at a position exactly when the pattern matches there with that second group. |
| MinosOutput.Search | src/kudu/scripts/minos_control_server.py:103 | Search returns the leftmost position where the matcher succeeds, or nothing when it succeeds nowhere. |
| MinosOutput.ParseNodeSpec | src/kudu/scripts/minos_control_server.py:100-106 | A non-empty result is the host of the leftmost match and consists of `[0-9a-z-.]` characters. The result is empty exactly when the pattern matches nowhere. |
| MinosOutput.ParseNodeOfStopLine | src/kudu/scripts/minos_control_server.py:100-106 | A minos stop line yields its host, whatever the task number, as long as the text after `(0)` does not start with a line break. |
| MinosControl.GetHost | src/kudu/scripts/minos_control_server.py:44-45 | The host is a prefix without ':' that is followed by ':' or the end of the text. |
| MinosControl.GetHostUnique | src/kudu/scripts/minos_control_server.py:44-45 | Only one string has those properties: the text before the first ':'. |
| MinosControl.GetHostOfAddress | src/kudu/scripts/minos_control_server.py:44-45 | Splitting `host:port` gives back a host that has no ':'. |
| MinosControl.UnhealthyHostsMembers | src/kudu/scripts/minos_control_server.py:56-61 | A host is collected exactly when some server on it is not HEALTHY. |
| MinosControl.UnhealthyTablesMembers | src/kudu/scripts/minos_control_server.py:62-65 | A name is collected exactly when some table of that name is not HEALTHY. |
| MinosControl.UnhealthyNodes | src/kudu/scripts/minos_control_server.py:47-69 | A ksck status other than 0 or 256 gives `{mockone}`. Otherwise a node is reported exactly when it hosts an unhealthy master or tablet server, or names an unhealthy table when table summaries are present. |
| MinosControl.CheckRound | src/kudu/scripts/minos_control_server.py:90-97 | One pass finds the poll healthy exactly when every unhealthy node is known. Otherwise it names an unknown unhealthy node. |
| MinosControl.WaitClusterHealth | src/kudu/scripts/minos_control_server.py:85-97 | The wait settles at the first poll whose unhealthy nodes are all known, and no earlier poll is. When it never settles, no poll is. |
| MinosControl.CheckParameter | src/kudu/scripts/minos_control_server.py:72-82 | The script proceeds exactly when the answer, stripped of newlines, is empty, "y" or "Y", and either empty values are allowed or the parameter is truthy and not all whitespace. |
| MinosControl.ValidParameterStrip | src/kudu/scripts/minos_control_server.py:77-80 | The `strip() == ''` test is the test for whitespace-only strings. |
| MinosControl.AnswerLetters | src/kudu/scripts/minos_control_server.py:74-75 | Lower-casing gives "y" exactly for "y" and "Y", and "" only for "". |
| MinosControl.LastIndexOf | src/kudu/scripts/minos_control_server.py:29 | The result is the last index of the character, or -1 when it does not occur. |
| MinosControl.Dirname | src/kudu/scripts/minos_control_server.py:29 | The directory name is a prefix of the path. |
| MinosControl.DirnameOfJoin | src/kudu/scripts/minos_control_server.py:29-30 | The directory name of `dir/name` is `dir`. |
| MinosControl.GetMinosType | src/kudu/scripts/minos_control_server.py:22-42 | Minos 1.0 wins when its variables are set and its config and deploy script exist. Minos 2.0 is next, under the same conditions for its own files. Otherwise the type is "null" with no client path. The type is "null" exactly when there is no path, so the driver's test (type name "null" or no path) holds exactly when neither minos is ready. |
| MinosControl.MinosTypeNamesDistinct | src/kudu/scripts/minos_control_server.py:115-127 | The printed type names are distinct, so the driver's string comparisons with "null" and "minos2.0" decide the type. |
| MinosControl.AugmentFlagsSpec | src/kudu/scripts/minos_control_server.py:125-128 | Outside a rolling update, or when `--update_package` is already present, the flags are unchanged. Otherwise ` --update_package` is appended. On minos 2.0 ` --confirm_install` is appended as well when the original flags lack it. |
| MinosControl.AugmentFlagsProvides | src/kudu/scripts/minos_control_server.py:125-128 | A rolling update always ends up with `--update_package`. On minos 2.0 it also gets `--confirm_install` whenever the script added the former. |
| MinosControl.AugmentFlagsIdempotent | src/kudu/scripts/minos_control_server.py:125-128 | Augmenting already augmented flags adds nothing. |
| Ascii.UpperCaseMatch | src/kudu/tools/tool_action_table.cc:538 | Two strings upper-case to the same text exactly when they are equal ignoring ASCII case. |
| Ascii.StripEmpty | src/kudu/scripts/minos_control_server.py:80 | Stripping a character set leaves nothing exactly when every character is in the set. |
| Ascii.ContainsAppend | src/kudu/scripts/minos_control_server.py:127 | Appending a text that starts with a character outside the pattern, and does not contain the pattern, creates no new occurrence. |

## Left out

- Threads, atomics and the real concurrency of the acceptor workers. A worker is its loop run over a sequence of accept outcomes. Workers share one pool value and act on it one step at a time.
- The socket system calls (`Accept`, `SetNoDelay`, `Shutdown`) and `Thread::Create`. Their results are inputs.
- Blocking in `Shutdown`'s join. When the socket call fails, a worker blocked in `accept` may never return, so the join could wait forever. The model records the join as done.
- AcceptorPool.Construct: the model counts only this pool's increments of `rpc_connections_accepted`, starting from zero. The real counter comes from the messenger's metric context (acceptor_pool.cc:40-41) and may already hold counts from elsewhere. So the invariant `accepted == |registered|` is a choice of the model, and so is the zero start that `ConstructValid` and `AllAcceptedDelivered` rely on. `Step` and `RunDelivers` state what the source does guarantee: the counter rises by one per registered connection.
- `AcceptorPool::GetBoundAddress`: a pass-through to `getsockname`, with no logic of its own.
- Logging and `VLOG` output, and the metric registry beyond the accepted-connections counter.
- Calling `Init` again after `Shutdown`. The source gives no guard: such a call records threads that no later `Shutdown` joins, because the flag is already set. `AcceptorPool.Init` models that call as written. Its invariant guarantee assumes a pool that is not closing.
- The Kudu client: connecting, opening tables, altering, listing, building scan tokens and scanning. The status or data each returns is an input. The tool's console output is not modelled.
- The JSON text parser (`JsonReader::Init`) and `safe_strto32`. Their results (a parsed JSON value, or an optional integer) are inputs.
- `JsonReader::ExtractInt64`, `ExtractString`, `ExtractBool` and `ExtractObjectArray` are not part of this model. `TableRows.ValueOfType` assumes the type tests of the first three: a JSON integer within the 64-bit range, a JSON string, a JSON boolean. `TableRows.ElementsOf` assumes that `ExtractObjectArray` gives InvalidArgument for a root that is not an array.
- FLOAT and DOUBLE values. Floating point is not modelled, so a number written with a fraction or exponent (`1.0` and `1e2` included) is one opaque value, and `ExtractFloat`/`ExtractDouble` accept exactly those. A number written without a fraction or exponent keeps its integer value.
- The table-name filter of `list` (`MatchesAnyPattern`), which lives outside the modelled file.
- The error message texts. Only the status codes are modelled.
- The top-level driver of the script: the printed prompts, `exit()`, the `deploy` command lines, `time.sleep`, and the loop over tasks. Their decisions are the functions above. `exit()` is the `Exit` verdict.
- A ksck output that is not valid JSON or lacks a key, which makes the script crash. The decoded summary is an input.
- Lower-casing beyond ASCII. Python 2 byte strings lower-case ASCII letters only, and that is what is modelled.

=== FILE: acceptor_pool.dfy ===
/** The RPC acceptor pool as a sequential state machine.

    The pool owns a listening socket and a set of worker threads that accept
    connections on it and hand them to the messenger. Threads, the accept
    race and the socket system calls are not modelled; what each of them
    reports is an input: whether `Thread::Create` succeeded, what `Accept`
    returned, whether `SetNoDelay` succeeded. */
module AcceptorPool {
  import opened KuduStatus

  datatype Sockaddr = Sockaddr(host: string, port: nat)

  /** An accepted connection's socket, identified by its descriptor. */
  datatype Socket = Socket(fd: int)

  datatype ThreadHandle = ThreadHandle(id: nat)

  /** A connection handed to `Messenger::RegisterInboundSocket`. */
  datatype Inbound = Inbound(conn: Socket, remote: Sockaddr)

  /** The pool's state.
      - `closing`: the flag `Shutdown` swaps from false to true.
      - `threads`: the handles `Init` recorded and `Shutdown` has not yet joined.
      - `socketOpen`: the listening socket has not been shut down.
      - `bindAddress`: the address snapshot taken at construction.
      - `accepted`: the `rpc_connections_accepted` counter.
      - `registered`: every connection handed to the messenger, in order.
      - `joined`: every thread `Shutdown` joined, in order. */
  datatype Pool = Pool(
    closing: bool,
    threads: seq<ThreadHandle>,
    socketOpen: bool,
    bindAddress: Sockaddr,
    accepted: nat,
    registered: seq<Inbound>,
    joined: seq<ThreadHandle>)

  /** What the pool keeps true between operations: the counter counts the
      registered connections, the socket is open while the pool is not
      closing, and a closed pool holds no threads. (A closing pool may still
      have its socket open: shutting the socket down can fail.) */
  predicate Valid(p: Pool) {
    && p.accepted == |p.registered|
    && (!p.closing ==> p.socketOpen)
    && (p.closing ==> p.threads == [])
  }

  /** The constructor. It instantiates the connection counter from the
      messenger's metric context, and `CHECK_NOTNULL` aborts the process when
      that context is missing: `None` here. */
  function Construct(bindAddress: Sockaddr, hasMetricContext: bool): (r: Option<Pool>)
    ensures r.Some? <==> hasMetricContext
    ensures r.Some? ==>
      && !r.value.closing && r.value.threads == [] && r.value.socketOpen
      && r.value.bindAddress == bindAddress
      && r.value.accepted == 0 && r.value.registered == [] && r.value.joined == []
  {
    if hasMetricContext then Some(Pool(false, [], true, bindAddress, 0, [], [])) else None
  }

  lemma ConstructValid(bindAddress: Sockaddr)
    ensures Construct(bindAddress, true).Some?
    ensures Valid(Construct(bindAddress, true).value)
  {
  }

  /** `Shutdown`: the first call sets the flag, shuts the listening socket
      down, joins every recorded thread and clears the list; a call that finds
      the flag already set returns at once. `socketShutOk` is what the socket
      shutdown reported: a failure is only logged, the socket stays open, and
      the threads are joined all the same (`CHECK_OK` makes every join
      succeed). */
  function Shutdown(p: Pool, socketShutOk: bool): (r: Pool)
    ensures r.closing && r.bindAddress == p.bindAddress
    ensures r.accepted == p.accepted && r.registered == p.registered
    ensures p.closing ==> r == p
    ensures !p.closing ==>
      && r.threads == [] && r.joined == p.joined + p.threads
      && (r.socketOpen <==> p.socketOpen && !socketShutOk)
  {
    if p.closing then p
    else p.(closing := true, socketOpen := p.socketOpen && !socketShutOk,
            threads := [], joined := p.joined + p.threads)
  }

  /** Only the first `Shutdown` does anything: calling it again changes
      nothing, whatever the socket would report, so no thread is joined twice
      and the socket is shut at most once. */
  lemma ShutdownIdempotent(p: Pool, first: bool, second: bool)
    ensures Shutdown(Shutdown(p, first), second) == Shutdown(p, first)
  {
  }

  /** From any valid state, `Shutdown` leaves the pool closing with no thread
      recorded and keeps it valid; the socket is down when the first call's
      socket shutdown succeeded. */
  lemma ShutdownCloses(p: Pool, socketShutOk: bool)
    requires Valid(p)
    ensures var q := Shutdown(p, socketShutOk); q.closing && q.threads == [] && Valid(q)
    ensures !p.closing && socketShutOk ==> !Shutdown(p, socketShutOk).socketOpen
    ensures p.closing ==> Shutdown(p, socketShutOk) == p
  {
  }

  /** The destructor calls `Shutdown`, so no recorded thread outlives the
      pool, provided a closing pool holds no threads (threads recorded by an
      `Init` after `Shutdown` would be missed). */
  function Destroy(p: Pool, socketShutOk: bool): (r: Pool)
    requires !p.closing || p.threads == []
    ensures r.threads == [] && r.closing
    ensures !p.closing && socketShutOk ==> !r.socketOpen
    ensures forall t :: t in p.threads ==> t in r.joined
  {
    Shutdown(p, socketShutOk)
  }

  /** `bind_address()`: the snapshot stored at construction. */
  function BindAddress(p: Pool): Sockaddr {
    p.bindAddress
  }

  /** The outcome of one `Thread::Create`. */
  datatype Spawn = Spawned(handle: ThreadHandle) | SpawnFailed(code: Code)

  /** Every creation among the first `n` succeeds. */
  predicate AllSpawned(spawn: nat -> Spawn, n: int) {
    forall i: nat :: i < n ==> spawn(i).Spawned?
  }

  /** The handles of the first `k` created threads, in creation order. */
  function Handles(spawn: nat -> Spawn, k: nat): (hs: seq<ThreadHandle>)
    requires AllSpawned(spawn, k)
    ensures |hs| == k
    ensures forall i :: 0 <= i < k ==> hs[i] == spawn(i).handle
  {
    seq(k, i requires 0 <= i < k => spawn(i).handle)
  }

  /** The index of the first failed creation among `from..n-1`, or `n` when
      there is none (and `from` when the range is empty). */
  function FirstFailure(spawn: nat -> Spawn, from: nat, n: int): (k: nat)
    requires from <= n
    ensures from <= k <= n
    ensures forall i: nat :: from <= i < k ==> spawn(i).Spawned?
    ensures k < n ==> spawn(k).SpawnFailed?
    decreases n - from
  {
    if from == n then from
    else if spawn(from).SpawnFailed? then from
    else FirstFailure(spawn, from + 1, n)
  }

  /** `Init(num_threads)`: creates the threads one after another, recording
      each handle. When creation `k` fails, the pool is shut down (joining the
      `k` threads already started) and that creation's error is returned;
      `socketShutOk` is what that shutdown's socket call reports. A
      non-positive count creates nothing and succeeds. */
  method Init(p: Pool, n: int, spawn: nat -> Spawn, socketShutOk: bool) returns (s: Status, q: Pool)
    ensures AllSpawned(spawn, n) ==>
      s == OK && q == p.(threads := p.threads + Handles(spawn, if n < 0 then 0 else n))
    ensures !AllSpawned(spawn, n) ==>
      var k := FirstFailure(spawn, 0, n);
      && s == Error(spawn(k).code)
      && q == Shutdown(p.(threads := p.threads + Handles(spawn, k)), socketShutOk)
    ensures q.bindAddress == p.bindAddress && q.registered == p.registered && q.accepted == p.accepted
    ensures n <= 0 ==> s == OK && q == p
    ensures Valid(p) && !p.closing ==> Valid(q)
    ensures Valid(p) && !p.closing && s.Error? ==>
      q.closing && q.threads == [] && (socketShutOk ==> !q.socketOpen)
    ensures !p.closing && s.OK? ==> !q.closing && |q.threads| == |p.threads| + (if n < 0 then 0 else n)
  {
    q := p;
    var i: nat := 0;
    while i < n
      invariant i <= n || i == 0
      invariant AllSpawned(spawn, i)
      invariant q == p.(threads := p.threads + Handles(spawn, i))
    {
      match spawn(i)
      case SpawnFailed(c) =>
        assert FirstFailure(spawn, i, n) == i;
        FirstFailureSkips(spawn, i, n);
        q := Shutdown(q, socketShutOk);
        return Error(c), q;
      case Spawned(h) =>
        assert Handles(spawn, i + 1) == Handles(spawn, i) + [h];
        q := q.(threads := q.threads + [h]);
        i := i + 1;
    }
    s := OK;
    if n > 0 {
      assert i == n;
    } else {
      assert p.threads + Handles(spawn, 0) == p.threads;
    }
  }

  /** Searching from 0 reaches the same first failure as searching from any
      point before which every creation succeeded. */
  lemma {:induction false} FirstFailureSkips(spawn: nat -> Spawn, i: nat, n: int)
    requires i <= n && AllSpawned(spawn, i)
    ensures FirstFailure(spawn, 0, n) == FirstFailure(spawn, i, n)
  {
    if i > 0 {
      assert spawn(i - 1).Spawned?;
      FirstFailureSkips(spawn, i - 1, n);
    }
  }

  /** What `Accept` reported. */
  datatype AcceptOutcome = AcceptOk(conn: Socket, remote: Sockaddr) | AcceptErr(code: Code)

  /** What `SetNoDelay(true)` on the new socket reported. */
  datatype NoDelayOutcome = NoDelayOk | NoDelayErr(code: Code)

  /** What one iteration of the worker loop did. */
  datatype StepKind = Stop | Continue | Register(inbound: Inbound)

  datatype StepResult = StepResult(kind: StepKind, next: Pool)

  /** One iteration of `RunThread`. A failed accept ends the loop when the
      pool is closing and is otherwise logged and retried. A successful accept
      whose no-delay option cannot be set drops the connection. Otherwise the
      counter goes up and the connection goes to the messenger. */
  function Step(p: Pool, a: AcceptOutcome, nd: NoDelayOutcome): (r: StepResult)
    ensures r.kind.Stop? <==> a.AcceptErr? && p.closing
    ensures r.kind.Register? <==> a.AcceptOk? && nd.NoDelayOk?
    ensures !r.kind.Register? ==> r.next == p
    ensures r.kind.Register? ==>
      && r.kind.inbound == Inbound(a.conn, a.remote)
      && r.next == p.(accepted := p.accepted + 1, registered := p.registered + [r.kind.inbound])
  {
    match a
    case AcceptErr(_) => if p.closing then StepResult(Stop, p) else StepResult(Continue, p)
    case AcceptOk(conn, remote) =>
      match nd
      case NoDelayErr(_) => StepResult(Continue, p)
      case NoDelayOk =>
        var inbound := Inbound(conn, remote);
        StepResult(Register(inbound), p.(accepted := p.accepted + 1, registered := p.registered + [inbound]))
  }

  /** A worker step keeps the pool valid and never touches the lifecycle
      fields or the bind address. */
  lemma StepValid(p: Pool, a: AcceptOutcome, nd: NoDelayOutcome)
    requires Valid(p)
    ensures var q := Step(p, a, nd).next;
      && Valid(q)
      && q.closing == p.closing && q.threads == p.threads && q.socketOpen == p.socketOpen
      && BindAddress(q) == BindAddress(p)
  {
  }

  /** The socket's contract: once shut down, every accept fails, whatever a
      live socket would have produced. */
  function AcceptOn(p: Pool, live: AcceptOutcome): (a: AcceptOutcome)
    ensures !p.socketOpen ==> a.AcceptErr?
    ensures p.socketOpen ==> a == live
  {
    if p.socketOpen then live else AcceptErr(NetworkError)
  }

  /** After a `Shutdown` whose socket shutdown succeeded, a worker's next
      iteration stops, whatever the network delivers: shutting the socket
      down is what releases workers. */
  lemma StepAfterShutdownStops(p: Pool, live: AcceptOutcome, nd: NoDelayOutcome)
    requires Valid(p) && !p.closing
    ensures var q := Shutdown(p, true); Step(q, AcceptOn(q, live), nd).kind == Stop
  {
  }

  /** When the socket shutdown fails, the socket keeps accepting: a worker
      of the now closing pool still registers a connection that arrives, and
      leaves its loop only at an accept that fails. */
  lemma StepAfterFailedShutdown(p: Pool, live: AcceptOutcome, nd: NoDelayOutcome)
    requires Valid(p) && !p.closing
    ensures var q := Shutdown(p, false);
      && q.closing && q.socketOpen
      && (Step(q, AcceptOn(q, live), nd).kind.Register? <==> live.AcceptOk? && nd.NoDelayOk?)
      && (Step(q, AcceptOn(q, live), nd).kind.Stop? <==> live.AcceptErr?)
  {
  }

  /** One loop iteration's inputs. */
  datatype Event = Event(accept: AcceptOutcome, noDelay: NoDelayOutcome)

  /** The connections a worker registers for a sequence of iterations: the
      accepted ones whose no-delay option was set, in order. */
  function Delivered(events: seq<Event>): (d: seq<Inbound>)
    ensures |d| <= |events|
  {
    if events == [] then []
    else
      var e := events[0];
      (if e.accept.AcceptOk? && e.noDelay.NoDelayOk? then [Inbound(e.accept.conn, e.accept.remote)] else [])
      + Delivered(events[1..])
  }

  /** The worker loop run over a sequence of iterations, stopping at the first
      `Stop`. Returns the final pool and the number of iterations taken. */
  function Run(p: Pool, events: seq<Event>): (r: (Pool, nat))
    ensures r.1 <= |events|
    decreases |events|
  {
    if events == [] then (p, 0)
    else
      var st := Step(p, events[0].accept, events[0].noDelay);
      if st.kind.Stop? then (p, 1)
      else
        var rest := Run(st.next, events[1..]);
        (rest.0, rest.1 + 1)
  }

  /** Running a worker registers exactly the connections `Delivered` lists
      for the iterations it took, raises the counter by their number, and
      keeps the pool valid. A worker of a pool that is not closing never
      leaves the loop: it takes every iteration offered. */
  lemma {:induction false} RunDelivers(p: Pool, events: seq<Event>)
    requires Valid(p)
    ensures var (q, k) := Run(p, events);
      && Valid(q)
      && q.registered == p.registered + Delivered(events[..k])
      && q.accepted == p.accepted + |Delivered(events[..k])|
      && q.closing == p.closing && q.threads == p.threads
      && q.bindAddress == p.bindAddress
      && (!p.closing ==> k == |events|)
    decreases |events|
  {
    if events != [] {
      var e := events[0];
      var st := Step(p, e.accept, e.noDelay);
      StepValid(p, e.accept, e.noDelay);
      StepDelivers(p, e);
      if st.kind.Stop? {
        DeliveredPrefix(events, 0);
        assert events[1..][..0] == [];
      } else {
        RunDelivers(st.next, events[1..]);
        var (q, k) := Run(st.next, events[1..]);
        assert Run(p, events) == (q, k + 1);
        DeliveredPrefix(events, k);
        assert p.registered + Delivered(events[..k + 1])
            == st.next.registered + Delivered(events[1..][..k]);
      }
    }
  }

  /** One iteration registers what `Delivered` lists for it, and a stopping
      iteration registers nothing. */
  lemma StepDelivers(p: Pool, e: Event)
    ensures var st := Step(p, e.accept, e.noDelay);
      && st.next.registered == p.registered + Delivered([e])
      && st.next.accepted == p.accepted + |Delivered([e])|
      && (st.kind.Stop? ==> Delivered([e]) == [])
  {
    assert [e][1..] == [];
  }

  /** The connections of the first `k + 1` iterations: the first one's,
      then those of the next `k`. */
  lemma DeliveredPrefix(events: seq<Event>, k: nat)
    requires k < |events|
    ensures Delivered(events[..k + 1]) == Delivered([events[0]]) + Delivered(events[1..][..k])
  {
    var t := events[..k + 1];
    assert t[0] == events[0];
    assert t[1..] == events[1..][..k];
    assert [events[0]][1..] == [];
  }

  /** With the pool open and every iteration accepting a connection whose
      no-delay option is set, the messenger receives every connection, in
      order, and the counter reads their number. Which worker served which
      connection does not matter: the steps act on one shared pool. */
  lemma {:induction false} AllAcceptedDelivered(p: Pool, events: seq<Event>)
    requires Valid(p) && !p.closing && p.accepted == 0
    requires forall i :: 0 <= i < |events| ==> events[i].accept.AcceptOk? && events[i].noDelay.NoDelayOk?
    ensures var q := Run(p, events).0;
      && q.accepted == |events|
      && |q.registered| == |events|
      && forall i :: 0 <= i < |events| ==>
           q.registered[i] == Inbound(events[i].accept.conn, events[i].accept.remote)
  {
    RunDelivers(p, events);
    assert events[..|events|] == events;
    DeliveredAll(events);
  }

  lemma {:induction false} DeliveredAll(events: seq<Event>)
    requires forall i :: 0 <= i < |events| ==> events[i].accept.AcceptOk? && events[i].noDelay.NoDelayOk?
    ensures |Delivered(events)| == |events|
    ensures forall i :: 0 <= i < |events| ==>
      Delivered(events)[i] == Inbound(events[i].accept.conn, events[i].accept.remote)
  {
    if events != [] {
      DeliveredAll(events[1..]);
    }
  }

  /** Running the worker loop, valid pool or not, keeps the bind address and
      never loses a registered connection. */
  lemma {:induction false} RunKeeps(p: Pool, events: seq<Event>)
    ensures var q := Run(p, events).0;
      && q.bindAddress == p.bindAddress
      && |p.registered| <= |q.registered| && q.registered[..|p.registered|] == p.registered
    decreases |events|
  {
    if events != [] {
      var st := Step(p, events[0].accept, events[0].noDelay);
      if !st.kind.Stop? {
        RunKeeps(st.next, events[1..]);
        var q := Run(st.next, events[1..]).0;
        assert q.registered[..|st.next.registered|][..|p.registered|] == q.registered[..|p.registered|];
        assert st.next.registered[..|p.registered|] == p.registered;
      }
    }
  }

  /** One call on the pool from its owner: `Init`, a run of the worker loop,
      or `Shutdown`, each with what the system calls report. */
  datatype Op =
    | InitOp(n: int, spawn: nat -> Spawn, socketShutOk: bool)
    | ServeOp(events: seq<Event>)
    | ShutdownOp(socketShutOk: bool)

  /** Applies a sequence of calls, in order. */
  method Apply(p: Pool, ops: seq<Op>) returns (q: Pool)
    ensures BindAddress(q) == BindAddress(p)
    ensures |p.registered| <= |q.registered| && q.registered[..|p.registered|] == p.registered
  {
    q := p;
    var i := 0;
    while i < |ops|
      invariant 0 <= i <= |ops|
      invariant q.bindAddress == p.bindAddress
      invariant |p.registered| <= |q.registered| && q.registered[..|p.registered|] == p.registered
    {
      var before := q;
      match ops[i] {
        case InitOp(n, spawn, ok) =>
          var _, q' := Init(q, n, spawn, ok);
          q := q';
        case ServeOp(events) =>
          RunKeeps(q, events);
          q := Run(q, events).0;
        case ShutdownOp(ok) =>
          q := Shutdown(q, ok);
      }
      assert q.registered[..|before.registered|] == before.registered;
      assert q.registered[..|before.registered|][..|p.registered|] == q.registered[..|p.registered|];
      i := i + 1;
    }
  }

  /** `bind_address()` reports the constructor's address for the pool's
      whole life, whatever calls are made and whatever they report. */
  method BindAddressAfter(bindAddress: Sockaddr, ops: seq<Op>) returns (addr: Sockaddr)
    ensures addr == bindAddress
  {
    var p := Construct(bindAddress, true).value;
    var q := Apply(p, ops);
    addr := BindAddress(q);
  }
}

=== FILE: ascii.dfy ===
/** Character and string helpers with the byte-oriented semantics both the
    C++ tool (`toupper` in the C locale) and the Python 2 script (`str` is a
    byte string) rely on. */
module Ascii {

  predicate IsLower(c: char) { 'a' <= c <= 'z' }

  predicate IsUpper(c: char) { 'A' <= c <= 'Z' }

  /** `toupper` in the C locale: only the 26 ASCII letters change. */
  function UpperChar(c: char): (u: char)
    ensures IsLower(c) ==> IsUpper(u) && u as int == c as int - 32
    ensures !IsLower(c) ==> u == c
  {
    if IsLower(c) then (c as int - 32) as char else c
  }

  /** `tolower` in the C locale. */
  function LowerChar(c: char): (l: char)
    ensures IsUpper(c) ==> IsLower(l) && l as int == c as int + 32
    ensures !IsUpper(c) ==> l == c
  {
    if IsUpper(c) then (c as int + 32) as char else c
  }

  /** Kudu's `ToUpperCase`: `toupper` applied to every character. */
  function ToUpper(s: string): (u: string)
    ensures |u| == |s|
    ensures forall i :: 0 <= i < |s| ==> u[i] == UpperChar(s[i])
  {
    seq(|s|, i requires 0 <= i < |s| => UpperChar(s[i]))
  }

  /** Python 2 `str.lower()` on a byte string. */
  function ToLower(s: string): (l: string)
    ensures |l| == |s|
    ensures forall i :: 0 <= i < |s| ==> l[i] == LowerChar(s[i])
  {
    seq(|s|, i requires 0 <= i < |s| => LowerChar(s[i]))
  }

  /** Two strings are equal up to ASCII letter case, compared character by
      character: the reference notion of a case-insensitive match. */
  predicate EqualIgnoringCase(a: string, b: string) {
    |a| == |b| && forall i :: 0 <= i < |a| ==> UpperChar(a[i]) == UpperChar(b[i])
  }

  lemma UpperCaseMatch(a: string, b: string)
    ensures ToUpper(a) == ToUpper(b) <==> EqualIgnoringCase(a, b)
  {
    if EqualIgnoringCase(a, b) {
      assert forall i :: 0 <= i < |a| ==> ToUpper(a)[i] == ToUpper(b)[i];
    }
    if ToUpper(a) == ToUpper(b) {
      assert forall i :: 0 <= i < |a| ==> UpperChar(a[i]) == ToUpper(a)[i];
    }
  }

  /** A string without lower-case letters is its own upper-case form. */
  lemma ToUpperFixed(s: string)
    requires forall i :: 0 <= i < |s| ==> !IsLower(s[i])
    ensures ToUpper(s) == s
  {
  }

  /** Drops the leading characters that belong to `cs`. */
  function TrimLeft(s: string, cs: set<char>): (r: string)
    ensures |r| <= |s| && r == s[|s| - |r|..]
    ensures forall i :: 0 <= i < |s| - |r| ==> s[i] in cs
    ensures r == [] || r[0] !in cs
  {
    if |s| > 0 && s[0] in cs then TrimLeft(s[1..], cs) else s
  }

  /** Drops the trailing characters that belong to `cs`. */
  function TrimRight(s: string, cs: set<char>): (r: string)
    ensures |r| <= |s| && r == s[..|r|]
    ensures forall i :: |r| <= i < |s| ==> s[i] in cs
    ensures r == [] || r[|r| - 1] !in cs
  {
    if |s| > 0 && s[|s| - 1] in cs then TrimRight(s[..|s| - 1], cs) else s
  }

  /** Python's `str.strip(chars)`: removes characters of `cs` from both ends. */
  function Strip(s: string, cs: set<char>): string {
    TrimRight(TrimLeft(s, cs), cs)
  }

  /** Stripping leaves nothing exactly when every character is strippable. */
  lemma StripEmpty(s: string, cs: set<char>)
    ensures Strip(s, cs) == [] <==> forall i :: 0 <= i < |s| ==> s[i] in cs
  {
    var l := TrimLeft(s, cs);
    if Strip(s, cs) == [] {
      assert |l| == 0;
    }
  }

  /** `sub` occurs in `s` starting at index `i`. */
  predicate OccursAt(s: string, sub: string, i: int) {
    0 <= i <= |s| - |sub| && s[i..i + |sub|] == sub
  }

  /** Python's `str.find(sub) != -1`, i.e. `sub in s`. */
  predicate Contains(s: string, sub: string) {
    exists i | 0 <= i <= |s| - |sub| :: OccursAt(s, sub, i)
  }

  /** A string contains everything it ends with. */
  lemma ContainsSuffix(s: string, sub: string)
    ensures Contains(s + sub, sub)
  {
    var t := s + sub;
    assert t[|s|..|s| + |sub|] == sub;
    assert OccursAt(t, sub, |s|);
  }

  /** Appending a string that cannot contribute to a match preserves
      containment both ways: if `sub` holds no `c` while `tail` starts with
      `c` and does not itself contain `sub`, then `s + tail` contains `sub`
      exactly when `s` does. */
  lemma ContainsAppend(s: string, tail: string, sub: string, c: char)
    requires |sub| > 0 && |tail| > 0 && tail[0] == c
    requires forall k :: 0 <= k < |sub| ==> sub[k] != c
    requires !Contains(tail, sub)
    ensures Contains(s + tail, sub) <==> Contains(s, sub)
  {
    var t := s + tail;
    if Contains(s, sub) {
      var i :| 0 <= i <= |s| - |sub| && OccursAt(s, sub, i);
      assert t[i..i + |sub|] == s[i..i + |sub|];
      assert OccursAt(t, sub, i);
    }
    if Contains(t, sub) {
      var i :| 0 <= i <= |t| - |sub| && OccursAt(t, sub, i);
      if i + |sub| <= |s| {
        assert s[i..i + |sub|] == t[i..i + |sub|];
        assert OccursAt(s, sub, i);
      } else if i >= |s| {
        OccursShift(s, tail, sub, i);
        assert false;
      } else {
        OccursStraddle(s, tail, sub, i);
        assert false;
      }
    }
  }

  /** An occurrence inside the appended part is an occurrence in it. */
  lemma OccursShift(s: string, tail: string, sub: string, i: int)
    requires |s| <= i && OccursAt(s + tail, sub, i)
    ensures OccursAt(tail, sub, i - |s|)
  {
    assert tail[i - |s|..i - |s| + |sub|] == (s + tail)[i..i + |sub|];
  }

  /** An occurrence crossing the seam contains the first appended character. */
  lemma OccursStraddle(s: string, tail: string, sub: string, i: int)
    requires |tail| > 0 && i < |s| < i + |sub| && OccursAt(s + tail, sub, i)
    ensures sub[|s| - i] == tail[0]
  {
    assert sub[|s| - i] == (s + tail)[|s|];
  }
}

=== FILE: kudu_status.dfy ===
/** Result types shared by the model: Kudu's `Status` codes, a status value,
    and the `Result`/`Option` wrappers used where the C++ code fills an out
    parameter or the Python code returns `None`. */
module KuduStatus {

  /** The `kudu::Status` codes that the modelled code produces or passes on. */
  datatype Code =
    | NotFound
    | Corruption
    | NotSupported
    | InvalidArgument
    | IOError
    | RuntimeError
    | NetworkError
    | IllegalState
    | ServiceUnavailable
    | TimedOut

  /** `Status::OK()` or an error carrying its code. */
  datatype Status = OK | Error(code: Code)

  /** A value, or the error status that prevented computing it. */
  datatype Result<+T> = Ok(value: T) | Err(code: Code)

  datatype Option<+T> = None | Some(value: T)
}

=== FILE: minos_control.dfy ===
/** The pure helpers of the tablet-server restart script: host extraction,
    the unhealthy-node set built from a `kudu cluster ksck` summary, the
    health wait, parameter confirmation, the flag augmentation for rolling
    updates, and the choice of minos deployment. The shell, the environment,
    the file system, stdin and the JSON decoder are represented by the
    values they return. */
module MinosControl {
  import opened KuduStatus
  import opened Ascii

  // ---------------------------------------------------------------------------
  // get_host

  /** `host_port.split(':')[0]`. */
  function GetHost(hostPort: string): (h: string)
    ensures |h| <= |hostPort| && h == hostPort[..|h|]
    ensures ':' !in h
    ensures |h| < |hostPort| ==> hostPort[|h|] == ':'
  {
    if hostPort == [] || hostPort[0] == ':' then []
    else [hostPort[0]] + GetHost(hostPort[1..])
  }

  /** The three properties above pin the host down: it is the text before
      the first ':', or everything when there is none. */
  lemma GetHostUnique(hostPort: string, h: string)
    requires |h| <= |hostPort| && h == hostPort[..|h|] && ':' !in h
    requires |h| < |hostPort| ==> hostPort[|h|] == ':'
    ensures h == GetHost(hostPort)
  {
    var g := GetHost(hostPort);
    assert forall k :: 0 <= k < |h| ==> hostPort[k] == h[k] != ':';
    assert forall k :: 0 <= k < |g| ==> hostPort[k] == g[k] != ':';
    assert |g| == |h|;
  }

  /** Joining a host without ':' to a port and splitting again gives the host. */
  lemma GetHostOfAddress(host: string, port: string)
    requires ':' !in host
    ensures GetHost(host + ":" + port) == host
  {
    var s := host + ":" + port;
    assert s[..|host|] == host;
    assert s[|host|] == ':';
    GetHostUnique(s, host);
  }

  // ---------------------------------------------------------------------------
  // is_cluster_health

  datatype ServerSummary = ServerSummary(address: string, health: string)
  datatype TableSummary = TableSummary(name: string, health: string)

  /** The decoded ksck JSON: master and tablet server summaries, and the
      table summaries when that section is present. */
  datatype KsckSummary = KsckSummary(
    masters: seq<ServerSummary>,
    tservers: seq<ServerSummary>,
    tables: Option<seq<TableSummary>>)

  const Healthy := "HEALTHY"

  /** The placeholder reported when ksck itself could not run. */
  const MockNode := "mockone"

  /** Server `i` is not healthy and runs on `host`. */
  predicate UnhealthyServerAt(servers: seq<ServerSummary>, i: int, host: string) {
    0 <= i < |servers| && servers[i].health != Healthy && GetHost(servers[i].address) == host
  }

  predicate UnhealthyTableAt(tables: seq<TableSummary>, i: int, name: string) {
    0 <= i < |tables| && tables[i].health != Healthy && tables[i].name == name
  }

  /** The hosts of the servers that are not healthy. */
  function UnhealthyHosts(servers: seq<ServerSummary>): set<string>
    decreases |servers|
  {
    if servers == [] then {}
    else
      var last := servers[|servers| - 1];
      var rest := UnhealthyHosts(servers[..|servers| - 1]);
      if last.health != Healthy then rest + {GetHost(last.address)} else rest
  }

  /** A host is collected exactly when some server on it is not healthy. */
  lemma {:induction false} UnhealthyHostsMembers(servers: seq<ServerSummary>)
    ensures forall x :: x in UnhealthyHosts(servers) <==> exists i :: UnhealthyServerAt(servers, i, x)
    decreases |servers|
  {
    if servers != [] {
      var n := |servers| - 1;
      var prefix := servers[..n];
      UnhealthyHostsMembers(prefix);
      forall x ensures x in UnhealthyHosts(servers) <==> exists i :: UnhealthyServerAt(servers, i, x) {
        if x in UnhealthyHosts(prefix) {
          var i :| UnhealthyServerAt(prefix, i, x);
          assert UnhealthyServerAt(servers, i, x);
        } else if x in UnhealthyHosts(servers) {
          assert UnhealthyServerAt(servers, n, x);
        }
        if exists i :: UnhealthyServerAt(servers, i, x) {
          var i :| UnhealthyServerAt(servers, i, x);
          if i < n {
            assert UnhealthyServerAt(prefix, i, x);
          }
        }
      }
    }
  }

  /** The names of the tables that are not healthy. */
  function UnhealthyTables(tables: seq<TableSummary>): set<string>
    decreases |tables|
  {
    if tables == [] then {}
    else
      var last := tables[|tables| - 1];
      var rest := UnhealthyTables(tables[..|tables| - 1]);
      if last.health != Healthy then rest + {last.name} else rest
  }

  /** A table name is collected exactly when some table of that name is not
      healthy. */
  lemma {:induction false} UnhealthyTablesMembers(tables: seq<TableSummary>)
    ensures forall x :: x in UnhealthyTables(tables) <==> exists i :: UnhealthyTableAt(tables, i, x)
    decreases |tables|
  {
    if tables != [] {
      var n := |tables| - 1;
      var prefix := tables[..n];
      UnhealthyTablesMembers(prefix);
      forall x ensures x in UnhealthyTables(tables) <==> exists i :: UnhealthyTableAt(tables, i, x) {
        if x in UnhealthyTables(prefix) {
          var i :| UnhealthyTableAt(prefix, i, x);
          assert UnhealthyTableAt(tables, i, x);
        } else if x in UnhealthyTables(tables) {
          assert UnhealthyTableAt(tables, n, x);
        }
        if exists i :: UnhealthyTableAt(tables, i, x) {
          var i :| UnhealthyTableAt(tables, i, x);
          if i < n {
            assert UnhealthyTableAt(prefix, i, x);
          }
        }
      }
    }
  }

  /** `is_cluster_health`: `status` is the wait status of the ksck command
      (256 is exit code 1, ksck having found problems). Any other failure
      yields the placeholder node alone; otherwise the result holds the hosts
      of unhealthy masters and tablet servers and the names of unhealthy
      tables. */
  function UnhealthyNodes(status: int, summary: KsckSummary): (r: set<string>)
    ensures status != 0 && status != 256 ==> r == {MockNode}
    ensures status == 0 || status == 256 ==>
      forall x :: x in r <==>
        || (exists i :: UnhealthyServerAt(summary.masters, i, x))
        || (exists i :: UnhealthyServerAt(summary.tservers, i, x))
        || (summary.tables.Some? && exists i :: UnhealthyTableAt(summary.tables.value, i, x))
  {
    UnhealthyHostsMembers(summary.masters);
    UnhealthyHostsMembers(summary.tservers);
    if status == 0 || status == 256 then
      UnhealthyHosts(summary.masters) + UnhealthyHosts(summary.tservers)
      + (match summary.tables
         case Some(ts) => (UnhealthyTablesMembers(ts); UnhealthyTables(ts))
         case None => {})
    else {MockNode}
  }

  // ---------------------------------------------------------------------------
  // wait_cluster_health

  /** The cluster counts as healthy when every unhealthy node is a known one. */
  predicate HealthyModuloKnown(nodes: set<string>, known: set<string>) {
    nodes <= known
  }

  /** One pass of the `for node in nodes` loop, visiting the nodes in any
      order and stopping at the first one that is not known. */
  method CheckRound(nodes: set<string>, known: set<string>) returns (healthy: bool, culprit: Option<string>)
    ensures healthy <==> HealthyModuloKnown(nodes, known)
    ensures healthy <==> culprit.None?
    ensures culprit.Some? ==> culprit.value in nodes && culprit.value !in known
  {
    healthy := true;
    culprit := None;
    var rest := nodes;
    while rest != {}
      invariant rest <= nodes
      invariant nodes - rest <= known
      decreases |rest|
    {
      var node :| node in rest;
      if node !in known {
        return false, Some(node);
      }
      rest := rest - {node};
    }
  }

  /** `wait_cluster_health`: `polls` are the successive results of
      `is_cluster_health`. The wait ends at the first poll that is healthy
      modulo the known nodes; `None` means the given polls never got there. */
  method WaitClusterHealth(polls: seq<set<string>>, known: set<string>) returns (settled: Option<nat>)
    ensures settled.Some? ==> settled.value < |polls| && HealthyModuloKnown(polls[settled.value], known)
    ensures settled.Some? ==> forall j :: 0 <= j < settled.value ==> !HealthyModuloKnown(polls[j], known)
    ensures settled.None? ==> forall j :: 0 <= j < |polls| ==> !HealthyModuloKnown(polls[j], known)
  {
    var k := 0;
    while k < |polls|
      invariant 0 <= k <= |polls|
      invariant forall j :: 0 <= j < k ==> !HealthyModuloKnown(polls[j], known)
    {
      var healthy, _ := CheckRound(polls[k], known);
      if healthy {
        return Some(k);
      }
      k := k + 1;
    }
    return None;
  }

  // ---------------------------------------------------------------------------
  // check_parameter

  /** The Python values the script confirms. */
  datatype PyValue = PyNone | PyBool(b: bool) | PyInt(i: int) | PyStr(s: string) | PyList(items: seq<PyValue>)

  /** Python truthiness. */
  predicate Truthy(v: PyValue) {
    match v
    case PyNone => false
    case PyBool(b) => b
    case PyInt(i) => i != 0
    case PyStr(s) => s != ""
    case PyList(items) => items != []
  }

  /** What `str.strip()` removes from a byte string. */
  const Whitespace: set<char> := {' ', '\t', '\n', '\r', 11 as char, 12 as char}

  datatype Verdict = Proceed | Exit

  /** `check_parameter` after printing its question: `line` is what
      `readline` returned. Anything but "y" or nothing (after removing line
      breaks at either end and lower-casing) exits; so does, unless empty
      values are allowed, a falsy value, an empty list or a blank string. */
  function CheckParameter(line: string, parameter: PyValue, allowEmpty: bool): (r: Verdict)
    ensures r == Proceed <==>
      && Strip(line, {'\n'}) in {"", "y", "Y"}
      && (allowEmpty || ValidParameter(parameter))
  {
    var answer := ToLower(Strip(line, {'\n'}));
    AnswerLetters(Strip(line, {'\n'}));
    ValidParameterStrip(parameter);
    if answer != "y" && answer != "" then Exit
    else if !allowEmpty && (
      || !Truthy(parameter)
      || (parameter.PyList? && |parameter.items| == 0)
      || (parameter.PyStr? && Strip(parameter.s, Whitespace) == ""))
    then Exit
    else Proceed
  }

  /** A parameter the script accepts as given: truthy, and not made of
      whitespace alone. */
  predicate ValidParameter(v: PyValue) {
    Truthy(v) && !(v.PyStr? && forall i :: 0 <= i < |v.s| ==> v.s[i] in Whitespace)
  }

  /** The blank-string test by `strip()` is the test for whitespace only. */
  lemma ValidParameterStrip(v: PyValue)
    ensures ValidParameter(v) <==> Truthy(v) && !(v.PyStr? && Strip(v.s, Whitespace) == "")
  {
    if v.PyStr? {
      StripEmpty(v.s, Whitespace);
    }
  }

  /** Lower-casing gives "y" exactly for "y" and "Y", and "" only for "". */
  lemma AnswerLetters(a: string)
    ensures ToLower(a) == "y" <==> a == "y" || a == "Y"
    ensures ToLower(a) == "" <==> a == ""
  {
    if ToLower(a) == "y" {
      assert |a| == 1 && LowerChar(a[0]) == 'y';
      assert a == [a[0]];
    }
    if a == "Y" {
      assert ToLower(a)[0] == 'y';
    }
    if a == "y" {
      assert ToLower(a)[0] == 'y';
    }
  }

  // ---------------------------------------------------------------------------
  // get_minos_type

  datatype MinosType = Minos1 | Minos2 | NoMinos

  /** The type names the script prints and compares. */
  function MinosTypeName(t: MinosType): string {
    match t
    case Minos1 => "minos1.0"
    case Minos2 => "minos2.0"
    case NoMinos => "null"
  }

  /** The names tell the types apart, so the script's comparisons of the
      name with "null" and "minos2.0" are comparisons of the type. */
  lemma MinosTypeNamesDistinct(a: MinosType, b: MinosType)
    ensures MinosTypeName(a) == MinosTypeName(b) <==> a == b
  {
  }

  /** The environment variables `get_minos_type` reads. */
  datatype MinosEnv = MinosEnv(
    configFile: Option<string>,
    clientDir: Option<string>,
    config2File: Option<string>,
    client2Dir: Option<string>)

  /** `str.rfind(c)`: the last index of `c`, or -1. */
  function LastIndexOf(s: string, c: char): (k: int)
    ensures -1 <= k < |s|
    ensures k >= 0 ==> s[k] == c
    ensures forall j :: k < j < |s| ==> s[j] != c
  {
    if s == [] then -1
    else if s[|s| - 1] == c then |s| - 1
    else LastIndexOf(s[..|s| - 1], c)
  }

  /** `os.path.dirname` (posixpath): everything up to the last '/', with
      trailing slashes removed unless it consists of slashes only. */
  function Dirname(p: string): (d: string)
    ensures |d| <= |p| && d == p[..|d|]
  {
    var head := p[..LastIndexOf(p, '/') + 1];
    if head != [] && exists i :: 0 <= i < |head| && head[i] != '/' then TrimRight(head, {'/'})
    else head
  }

  /** The directory of a file named inside a directory is that directory. */
  lemma DirnameOfJoin(dir: string, name: string)
    requires dir != [] && dir[|dir| - 1] != '/' && '/' !in name
    ensures Dirname(dir + "/" + name) == dir
  {
    var p := dir + "/" + name;
    assert p[|dir|] == '/';
    assert forall j :: |dir| < j < |p| ==> p[j] == name[j - |dir| - 1];
    var head := p[..|dir| + 1];
    assert head == dir + "/";
    assert head[|dir| - 1] != '/';
    assert head[..|head| - 1] == dir;
  }

  const ConfigDir := "/xiaomi-config/conf/kudu/kudu-"

  /** The minos 1.0 deployment is usable: both variables are set and both
      its cluster config and its deploy script exist. */
  predicate Minos1Ready(env: MinosEnv, existing: set<string>, cluster: string) {
    && env.configFile.Some? && env.clientDir.Some?
    && Dirname(env.configFile.value) + ConfigDir + cluster + ".cfg" in existing
    && env.clientDir.value + "/deploy" in existing
  }

  predicate Minos2Ready(env: MinosEnv, existing: set<string>, cluster: string) {
    && env.config2File.Some? && env.client2Dir.Some?
    && Dirname(env.config2File.value) + ConfigDir + cluster + ".yaml" in existing
    && env.client2Dir.value + "/deploy" in existing
  }

  /** `get_minos_type`: minos 1.0 takes precedence, then minos 2.0; with
      neither, the type is "null" and there is no client path. */
  function GetMinosType(env: MinosEnv, existing: set<string>, cluster: string): (r: (MinosType, Option<string>))
    ensures Minos1Ready(env, existing, cluster) ==> r == (Minos1, env.clientDir)
    ensures !Minos1Ready(env, existing, cluster) && Minos2Ready(env, existing, cluster) ==>
      r == (Minos2, env.client2Dir)
    ensures !Minos1Ready(env, existing, cluster) && !Minos2Ready(env, existing, cluster) ==>
      r == (NoMinos, None)
    ensures r.0 == NoMinos <==> r.1.None?
    ensures MinosTypeName(r.0) == "null" || r.1.None? <==>
      !Minos1Ready(env, existing, cluster) && !Minos2Ready(env, existing, cluster)
  {
    if Minos1Ready(env, existing, cluster) then (Minos1, env.clientDir)
    else if Minos2Ready(env, existing, cluster) then (Minos2, env.client2Dir)
    else (NoMinos, None)
  }

  // ---------------------------------------------------------------------------
  // Flags for a rolling update

  const RollingUpdate := "rolling_update"
  const UpdatePackage := "--update_package"
  const ConfirmInstall := "--confirm_install"

  /** The flag augmentation before the tasks run: a rolling update gets
      ` --update_package` unless the flags already hold it, and when that was
      added on minos 2.0 it also gets ` --confirm_install` unless present. */
  function AugmentFlags(operate: string, flags: string, minos: MinosType): string {
    if operate == RollingUpdate && !Contains(flags, UpdatePackage) then
      var f := flags + " " + UpdatePackage;
      if minos == Minos2 && !Contains(f, ConfirmInstall) then f + " " + ConfirmInstall else f
    else flags
  }

  /** What the augmentation adds, stated on the original flags: the script
      tests for `--confirm_install` after appending ` --update_package`, which
      cannot create an occurrence, so the test is the same as on the input. */
  lemma AugmentFlagsSpec(operate: string, flags: string, minos: MinosType)
    ensures operate != RollingUpdate || Contains(flags, UpdatePackage) ==>
      AugmentFlags(operate, flags, minos) == flags
    ensures operate == RollingUpdate && !Contains(flags, UpdatePackage) ==>
      AugmentFlags(operate, flags, minos) ==
        flags + " " + UpdatePackage
        + (if minos == Minos2 && !Contains(flags, ConfirmInstall) then " " + ConfirmInstall else "")
  {
    NoConfirmInUpdate();
    ContainsAppend(flags, " " + UpdatePackage, ConfirmInstall, ' ');
    assert flags + " " + UpdatePackage == flags + (" " + UpdatePackage);
  }

  /** After the augmentation a rolling update always carries
      `--update_package`, and on minos 2.0 also `--confirm_install` whenever
      the script added the former. */
  lemma AugmentFlagsProvides(flags: string, minos: MinosType)
    ensures Contains(AugmentFlags(RollingUpdate, flags, minos), UpdatePackage)
    ensures !Contains(flags, UpdatePackage) && minos == Minos2 ==>
      Contains(AugmentFlags(RollingUpdate, flags, minos), ConfirmInstall)
  {
    if !Contains(flags, UpdatePackage) {
      var f := flags + " " + UpdatePackage;
      assert f == (flags + " ") + UpdatePackage;
      ContainsSuffix(flags + " ", UpdatePackage);
      if minos == Minos2 && !Contains(f, ConfirmInstall) {
        NoUpdateInConfirm();
        ContainsAppend(f, " " + ConfirmInstall, UpdatePackage, ' ');
        assert f + " " + ConfirmInstall == f + (" " + ConfirmInstall);
        assert f + " " + ConfirmInstall == (f + " ") + ConfirmInstall;
        ContainsSuffix(f + " ", ConfirmInstall);
      }
    }
  }

  /** Augmenting flags that were already augmented adds nothing. */
  lemma AugmentFlagsIdempotent(operate: string, flags: string, minos: MinosType)
    ensures AugmentFlags(operate, AugmentFlags(operate, flags, minos), minos) == AugmentFlags(operate, flags, minos)
  {
    if operate == RollingUpdate {
      AugmentFlagsProvides(flags, minos);
    }
  }

  lemma NoConfirmInUpdate()
    ensures !Contains(" " + UpdatePackage, ConfirmInstall)
  {
    var t := " " + UpdatePackage;
    forall i | 0 <= i <= |t| - |ConfirmInstall| ensures !OccursAt(t, ConfirmInstall, i) {
      assert t[i] != ConfirmInstall[0];
    }
  }

  lemma NoUpdateInConfirm()
    ensures !Contains(" " + ConfirmInstall, UpdatePackage)
  {
    var t := " " + ConfirmInstall;
    forall i | 0 <= i <= |t| - |UpdatePackage| ensures !OccursAt(t, UpdatePackage, i) {
      assert t[i + 2] != UpdatePackage[2];
    }
  }
}

=== FILE: minos_output.dfy ===
/** `parse_node_from_minos_output`: finds the host in the line minos prints
    when it stops a tablet server, by searching the output for the pattern
    `Stop task [0-9]+ of (tablet_server) on ([0-9a-z-.]+)\(0\).+`.

    Instead of a general regular-expression engine, the pattern is written
    out twice: as a declarative shape (`MatchesAt`) and as a direct matcher
    (`MatchAt`), and the two are proved to agree. */
module MinosOutput {
  import opened KuduStatus

  const StopTask := "Stop task "
  const OfTabletServer := " of tablet_server on "
  const NodeSuffix := "(0)"

  predicate IsDigit(c: char) { '0' <= c <= '9' }

  /** The class `[0-9a-z-.]`: a `-` right after a range is a literal. */
  predicate IsHostChar(c: char) { IsDigit(c) || 'a' <= c <= 'z' || c == '-' || c == '.' }

  datatype CharClass = Digits | HostChars

  predicate InClass(cls: CharClass, c: char) {
    match cls
    case Digits => IsDigit(c)
    case HostChars => IsHostChar(c)
  }

  /** The length of the longest run of `cls` characters starting at `j`:
      what a greedy `[...]+` consumes, given that what follows it in the
      pattern cannot be a `cls` character. */
  function Span(s: string, j: nat, cls: CharClass): (n: nat)
    requires j <= |s|
    ensures j + n <= |s|
    ensures forall k :: j <= k < j + n ==> InClass(cls, s[k])
    ensures j + n == |s| || !InClass(cls, s[j + n])
    decreases |s| - j
  {
    if j < |s| && InClass(cls, s[j]) then 1 + Span(s, j + 1, cls) else 0
  }

  /** A run of `n` class characters followed by a non-class character (or
      the end) is exactly what `Span` measures. */
  lemma {:induction false} SpanExact(s: string, j: nat, cls: CharClass, n: nat)
    requires j + n <= |s|
    requires forall k :: j <= k < j + n ==> InClass(cls, s[k])
    requires j + n == |s| || !InClass(cls, s[j + n])
    ensures Span(s, j, cls) == n
    decreases n
  {
    if n > 0 {
      SpanExact(s, j + 1, cls, n - 1);
    }
  }

  /** The tail of the pattern matches at `c` with `host` as the second
      group: the host characters, `(0)`, and one more character that is not a
      line break (`.+` needs one). */
  predicate HostShape(s: string, c: nat, host: string) {
    var d := c + |host|;
    && |host| >= 1
    && d + |NodeSuffix| < |s|
    && s[c..d] == host
    && (forall k :: 0 <= k < |host| ==> IsHostChar(host[k]))
    && s[d..d + |NodeSuffix|] == NodeSuffix
    && s[d + |NodeSuffix|] != '\n'
  }

  /** The pattern matches at `i` with `n` digits in the task number and
      `host` as its second group: the literal prefix, the digits, the literal
      infix, then the tail. */
  predicate Shape(s: string, i: nat, n: nat, host: string) {
    var a := i + |StopTask|;
    var b := a + n;
    var c := b + |OfTabletServer|;
    && n >= 1
    && c <= |s|
    && s[i..a] == StopTask
    && (forall k :: a <= k < b ==> IsDigit(s[k]))
    && s[b..c] == OfTabletServer
    && HostShape(s, c, host)
  }

  ghost predicate MatchesAt(s: string, i: nat, host: string) {
    exists n: nat :: Shape(s, i, n, host)
  }

  /** The matcher for the tail of the pattern at `c`: a greedy run of host
      characters, then literal comparisons. */
  function MatchHost(s: string, c: nat): Option<string>
    requires c <= |s|
  {
    var m := Span(s, c, HostChars);
    var d := c + m;
    if m == 0 || d + |NodeSuffix| >= |s| || s[d..d + |NodeSuffix|] != NodeSuffix
       || s[d + |NodeSuffix|] == '\n' then None
    else Some(s[c..d])
  }

  /** The matcher for the middle of the pattern at `a`: a greedy run of
      digits and the literal infix, then the tail. */
  function MatchNumber(s: string, a: nat): Option<string>
    requires a <= |s|
  {
    var n := Span(s, a, Digits);
    var b := a + n;
    var c := b + |OfTabletServer|;
    if n == 0 || c > |s| || s[b..c] != OfTabletServer then None
    else MatchHost(s, c)
  }

  /** The matcher at one position: the literal prefix, then the rest. */
  function MatchAt(s: string, i: nat): Option<string>
    requires i <= |s|
  {
    var a := i + |StopTask|;
    if a > |s| || s[i..a] != StopTask then None
    else MatchNumber(s, a)
  }

  lemma MatchHostSound(s: string, c: nat, host: string)
    requires c <= |s| && MatchHost(s, c) == Some(host)
    ensures HostShape(s, c, host)
  {
  }

  lemma MatchHostComplete(s: string, c: nat, host: string)
    requires HostShape(s, c, host)
    ensures MatchHost(s, c) == Some(host)
  {
    var d := c + |host|;
    assert s[d] == s[d..d + |NodeSuffix|][0] == '(';
    forall k | c <= k < d ensures IsHostChar(s[k]) {
      assert s[k] == s[c..d][k - c];
    }
    SpanExact(s, c, HostChars, |host|);
  }

  /** What the matcher reports is a match of the pattern. */
  lemma MatchAtSound(s: string, i: nat, host: string)
    requires i <= |s| && MatchAt(s, i) == Some(host)
    ensures Shape(s, i, Span(s, i + |StopTask|, Digits), host)
  {
    var c := i + |StopTask| + Span(s, i + |StopTask|, Digits) + |OfTabletServer|;
    MatchHostSound(s, c, host);
  }

  /** Every match of the pattern is found by the matcher. */
  lemma MatchAtComplete(s: string, i: nat, n: nat, host: string)
    requires Shape(s, i, n, host)
    ensures MatchAt(s, i) == Some(host)
  {
    MatchNumberComplete(s, i + |StopTask|, n, host);
  }

  lemma MatchNumberComplete(s: string, a: nat, n: nat, host: string)
    requires a <= |s| && n >= 1
    requires a + n + |OfTabletServer| <= |s|
    requires forall k :: a <= k < a + n ==> IsDigit(s[k])
    requires s[a + n..a + n + |OfTabletServer|] == OfTabletServer
    requires HostShape(s, a + n + |OfTabletServer|, host)
    ensures MatchNumber(s, a) == Some(host)
  {
    var b := a + n;
    var c := b + |OfTabletServer|;
    assert s[b] == s[b..c][0] == OfTabletServer[0];
    SpanExact(s, a, Digits, n);
    MatchHostComplete(s, c, host);
  }

  /** The matcher reports `host` at `i` when, and only when, the pattern
      matches there with that second group. */
  lemma MatchAtAgrees(s: string, i: nat, host: string)
    requires i <= |s|
    ensures MatchAt(s, i) == Some(host) <==> MatchesAt(s, i, host)
  {
    if MatchAt(s, i) == Some(host) {
      MatchAtSound(s, i, host);
    }
    if MatchesAt(s, i, host) {
      var n: nat :| Shape(s, i, n, host);
      MatchAtComplete(s, i, n, host);
    }
  }

  /** The first present entry of `xs` from index `i` on, with its index. */
  function FirstSome<T>(xs: seq<Option<T>>, i: nat): (r: Option<(nat, T)>)
    requires i <= |xs|
    ensures r.Some? ==> i <= r.value.0 < |xs| && xs[r.value.0] == Some(r.value.1)
    ensures r.Some? ==> forall j :: i <= j < r.value.0 ==> xs[j].None?
    ensures r.None? ==> forall j :: i <= j < |xs| ==> xs[j].None?
    decreases |xs| - i
  {
    if i == |xs| then None
    else if xs[i].Some? then Some((i, xs[i].value))
    else FirstSome(xs, i + 1)
  }

  /** The matcher's answer at every position of `s`, the end included. */
  function Attempts(s: string): (ms: seq<Option<string>>)
    ensures |ms| == |s| + 1
    ensures forall j :: 0 <= j <= |s| ==> ms[j] == MatchAt(s, j)
  {
    seq(|s| + 1, j requires 0 <= j <= |s| => MatchAt(s, j))
  }

  /** `regex.search`: the first position where the pattern matches, with its
      second group. */
  function Search(s: string): (r: Option<(nat, string)>)
    ensures r.Some? ==> r.value.0 <= |s| && MatchAt(s, r.value.0) == Some(r.value.1)
    ensures r.Some? ==> forall j :: 0 <= j < r.value.0 ==> MatchAt(s, j).None?
    ensures r.None? ==> forall j :: 0 <= j <= |s| ==> MatchAt(s, j).None?
  {
    var ms := Attempts(s);
    var r := FirstSome(ms, 0);
    assert r.Some? ==> forall j :: 0 <= j < r.value.0 ==> ms[j].None?;
    r
  }

  /** `parse_node_from_minos_output`: the host of the first match, or the
      empty string when nothing matches. */
  function ParseNode(output: string): string {
    match Search(output)
    case Some((_, h)) => h
    case None => ""
  }

  /** A non-empty answer is the host named by the leftmost place where the
      pattern matches, and is made of host characters only; the empty answer
      means the pattern matches nowhere. */
  lemma ParseNodeSpec(output: string)
    ensures ParseNode(output) != "" ==>
      exists i: nat :: i <= |output| && MatchesAt(output, i, ParseNode(output)) &&
        forall j: nat, h :: j < i ==> !MatchesAt(output, j, h)
    ensures ParseNode(output) != "" ==>
      forall k :: 0 <= k < |ParseNode(output)| ==> IsHostChar(ParseNode(output)[k])
    ensures ParseNode(output) == "" <==> forall i: nat, h :: !MatchesAt(output, i, h)
  {
    var r := Search(output);
    if r.Some? {
      var (i, host) := r.value;
      MatchAtAgrees(output, i, host);
      forall j: nat, h | j < i ensures !MatchesAt(output, j, h) {
        MatchAtAgrees(output, j, h);
      }
      var n: nat :| Shape(output, i, n, host);
      assert host != "";
    } else {
      forall i: nat, h ensures !MatchesAt(output, i, h) {
        if i <= |output| {
          MatchAtAgrees(output, i, h);
        }
      }
    }
  }

  /** A line that starts with the stop message yields its host, whatever
      the task number and whatever follows on the line. */
  lemma ParseNodeOfStopLine(digits: string, host: string, rest: string)
    requires |digits| >= 1 && forall k :: 0 <= k < |digits| ==> IsDigit(digits[k])
    requires |host| >= 1 && forall k :: 0 <= k < |host| ==> IsHostChar(host[k])
    requires |rest| >= 1 && rest[0] != '\n'
    ensures ParseNode(StopTask + digits + OfTabletServer + host + NodeSuffix + rest) == host
  {
    var s := StopTask + digits + OfTabletServer + host + NodeSuffix + rest;
    StopLineShape(digits, host, rest);
    MatchAtComplete(s, 0, |digits|, host);
    ParseNodeAtStart(s, host);
  }

  /** The stop line has the shape of the pattern at its start. */
  lemma StopLineShape(digits: string, host: string, rest: string)
    requires |digits| >= 1 && forall k :: 0 <= k < |digits| ==> IsDigit(digits[k])
    requires |host| >= 1 && forall k :: 0 <= k < |host| ==> IsHostChar(host[k])
    requires |rest| >= 1 && rest[0] != '\n'
    ensures Shape(StopTask + digits + OfTabletServer + host + NodeSuffix + rest, 0, |digits|, host)
  {
    var s := StopTask + digits + OfTabletServer + host + NodeSuffix + rest;
    Pieces(StopTask, digits, OfTabletServer, host, NodeSuffix, rest);
    var a := |StopTask|;
    var b := a + |digits|;
    forall k | a <= k < b ensures IsDigit(s[k]) {
      assert s[k] == s[a..b][k - a];
    }
    var d := b + |OfTabletServer| + |host|;
    assert s[d + |NodeSuffix|] == s[d + |NodeSuffix|..][0] == rest[0];
  }

  /** The pieces of a concatenation of six strings sit where their lengths
      say. */
  lemma Pieces(x1: string, x2: string, x3: string, x4: string, x5: string, x6: string)
    ensures var s := x1 + x2 + x3 + x4 + x5 + x6;
      var a := |x1|;
      var b := a + |x2|;
      var c := b + |x3|;
      var d := c + |x4|;
      var e := d + |x5|;
      && s[..a] == x1 && s[a..b] == x2 && s[b..c] == x3
      && s[c..d] == x4 && s[d..e] == x5 && s[e..] == x6
  {
  }

  /** A match at the very start is the one `ParseNode` reports. */
  lemma ParseNodeAtStart(s: string, host: string)
    requires MatchAt(s, 0) == Some(host)
    ensures ParseNode(s) == host
  {
  }
}

=== FILE: table_args.dfy ===
/** Argument handling of the `kudu table` tool actions that do not depend on
    the cluster: the compression, encoding and block-size arguments of the
    column-alteration actions, the range-partition filter of `describe`, the
    replica role letter of `list`, and the destination defaults of `copy`.
    The client (connecting, altering, scanning) is represented only by the
    status it reports. */
module TableArgs {
  import opened KuduStatus
  import opened Ascii

  // ---------------------------------------------------------------------------
  // Name lookups

  /** `FindOrNull` on a table keyed by upper-case names, after `ToUpperCase`. */
  function LookupUpper<T>(table: map<string, T>, arg: string): (r: Result<T>)
    ensures r.Ok? <==> ToUpper(arg) in table
    ensures r.Ok? ==> r.value == table[ToUpper(arg)]
    ensures r.Err? ==> r.code == InvalidArgument
  {
    var key := ToUpper(arg);
    if key in table then Ok(table[key]) else Err(InvalidArgument)
  }

  /** `KuduColumnStorageAttributes::CompressionType`. */
  datatype Compression = DefaultCompression | NoCompression | Snappy | Lz4 | Zlib

  function CompressionName(c: Compression): string {
    match c
    case DefaultCompression => "DEFAULT_COMPRESSION"
    case NoCompression => "NO_COMPRESSION"
    case Snappy => "SNAPPY"
    case Lz4 => "LZ4"
    case Zlib => "ZLIB"
  }

  /** The names `column_set_compression` accepts. */
  const CompressionTypes: map<string, Compression> := map[
    "DEFAULT_COMPRESSION" := DefaultCompression,
    "NO_COMPRESSION" := NoCompression,
    "SNAPPY" := Snappy,
    "LZ4" := Lz4,
    "ZLIB" := Zlib]

  /** Parses the `compression_type` argument; any name outside the table is
      an invalid argument. */
  function ParseCompression(arg: string): (r: Result<Compression>)
    ensures r.Err? ==> r.code == InvalidArgument
  {
    LookupUpper(CompressionTypes, arg)
  }

  /** The table holds exactly one entry per compression type, under its name. */
  lemma CompressionTableExact()
    ensures forall c :: CompressionName(c) in CompressionTypes && CompressionTypes[CompressionName(c)] == c
    ensures forall k :: k in CompressionTypes ==> k == CompressionName(CompressionTypes[k])
  {
  }

  /** The compression argument is matched case-insensitively against the
      names, and only those: it selects `c` exactly when it spells `c`'s name
      in any mix of cases. */
  lemma ParseCompressionIgnoresCase(arg: string, c: Compression)
    ensures ParseCompression(arg) == Ok(c) <==> EqualIgnoringCase(arg, CompressionName(c))
  {
    var name := CompressionName(c);
    CompressionNameIsUpper(c);
    UpperCaseMatch(arg, name);
    CompressionTableExact();
  }

  /** Every compression name, spelled in upper case, parses back to itself. */
  lemma CompressionRoundTrip(c: Compression)
    ensures ParseCompression(CompressionName(c)) == Ok(c)
    ensures ParseCompression(ToLower(CompressionName(c))) == Ok(c)
  {
    ParseCompressionIgnoresCase(CompressionName(c), c);
    var lower := ToLower(CompressionName(c));
    assert EqualIgnoringCase(lower, CompressionName(c)) by {
      forall i | 0 <= i < |lower| ensures UpperChar(lower[i]) == UpperChar(CompressionName(c)[i]) {
      }
    }
    ParseCompressionIgnoresCase(lower, c);
  }

  /** `KuduColumnStorageAttributes::EncodingType`. */
  datatype Encoding = AutoEncoding | PlainEncoding | PrefixEncoding | Rle | DictEncoding | BitShuffle

  function EncodingName(e: Encoding): string {
    match e
    case AutoEncoding => "AUTO_ENCODING"
    case PlainEncoding => "PLAIN_ENCODING"
    case PrefixEncoding => "PREFIX_ENCODING"
    case Rle => "RLE"
    case DictEncoding => "DICT_ENCODING"
    case BitShuffle => "BIT_SHUFFLE"
  }

  /** The names `column_set_encoding` accepts. */
  const EncodingTypes: map<string, Encoding> := map[
    "AUTO_ENCODING" := AutoEncoding,
    "PLAIN_ENCODING" := PlainEncoding,
    "PREFIX_ENCODING" := PrefixEncoding,
    "RLE" := Rle,
    "DICT_ENCODING" := DictEncoding,
    "BIT_SHUFFLE" := BitShuffle]

  /** Parses the `encoding_type` argument; any name outside the table is an
      invalid argument. */
  function ParseEncoding(arg: string): (r: Result<Encoding>)
    ensures r.Err? ==> r.code == InvalidArgument
  {
    LookupUpper(EncodingTypes, arg)
  }

  lemma EncodingTableExact()
    ensures forall e :: EncodingName(e) in EncodingTypes && EncodingTypes[EncodingName(e)] == e
    ensures forall k :: k in EncodingTypes ==> k == EncodingName(EncodingTypes[k])
  {
  }

  /** The encoding argument selects `e` exactly when it spells `e`'s name in
      any mix of cases. */
  lemma ParseEncodingIgnoresCase(arg: string, e: Encoding)
    ensures ParseEncoding(arg) == Ok(e) <==> EqualIgnoringCase(arg, EncodingName(e))
  {
    var name := EncodingName(e);
    EncodingNameIsUpper(e);
    UpperCaseMatch(arg, name);
    EncodingTableExact();
  }

  /** The names are written in upper case, so upper-casing leaves them alone. */
  lemma CompressionNameIsUpper(c: Compression)
    ensures ToUpper(CompressionName(c)) == CompressionName(c)
  {
    var name := CompressionName(c);
    assert forall i :: 0 <= i < |name| ==> !IsLower(name[i]) by {
      match c
      case DefaultCompression =>
      case NoCompression =>
      case Snappy =>
      case Lz4 =>
      case Zlib =>
    }
    ToUpperFixed(name);
  }

  lemma EncodingNameIsUpper(e: Encoding)
    ensures ToUpper(EncodingName(e)) == EncodingName(e)
  {
    var name := EncodingName(e);
    assert forall i :: 0 <= i < |name| ==> !IsLower(name[i]) by {
      match e
      case AutoEncoding =>
      case PlainEncoding =>
      case PrefixEncoding =>
      case Rle =>
      case DictEncoding =>
      case BitShuffle =>
    }
    ToUpperFixed(name);
  }

  // ---------------------------------------------------------------------------
  // Block size

  const Int32Max := 0x7FFF_FFFF
  const Int32Min := -0x8000_0000

  /** Validates `block_size`. `parsed` is the integer the argument spells, or
      `None` when it is not an integer at all; `safe_strto32` also rejects a
      value outside the 32-bit range. Both failures, and a size that is not
      positive, are invalid arguments. */
  function ValidateBlockSize(parsed: Option<int>): (r: Result<int>)
    ensures r.Ok? <==> parsed.Some? && 0 < parsed.value <= Int32Max
    ensures r.Ok? ==> r.value == parsed.value
    ensures r.Err? ==> r.code == InvalidArgument
  {
    match parsed
    case None => Err(InvalidArgument)
    case Some(v) =>
      if v < Int32Min || v > Int32Max then Err(InvalidArgument)
      else if v <= 0 then Err(InvalidArgument)
      else Ok(v)
  }

  // ---------------------------------------------------------------------------
  // Column alteration actions

  /** The change one column-alteration action asks the master for. */
  datatype ColumnChange =
    | SetCompression(compression: Compression)
    | SetEncoding(encoding: Encoding)
    | SetBlockSize(blockSize: int)

  /** What running an action did: the status it returned, whether it tried
      to connect a client (whatever the outcome), and the change it sent to
      the master, if any. */
  datatype AlterRun = AlterRun(status: Status, clientAttempted: bool, sent: Option<ColumnChange>)

  /** The tail shared by the column-alteration actions: validate the
      argument, then create a client (`connect` is what `CreateKuduClient`
      reports), then send the change (`alter` is what `Alter` reports). */
  function RunAlter(change: Result<ColumnChange>, connect: Status, alter: Status): (r: AlterRun)
    ensures change.Err? ==> r == AlterRun(Error(change.code), false, None)
    ensures change.Ok? ==> r.clientAttempted
    ensures r.sent.Some? <==> change.Ok? && connect.OK?
    ensures r.sent.Some? ==> r.sent.value == change.value && r.status == alter
    ensures change.Ok? && connect.Error? ==> r.status == connect
  {
    match change
    case Err(c) => AlterRun(Error(c), false, None)
    case Ok(ch) =>
      if connect.Error? then AlterRun(connect, true, None) else AlterRun(alter, true, Some(ch))
  }

  function ColumnSetCompression(arg: string, connect: Status, alter: Status): AlterRun {
    RunAlter(match ParseCompression(arg) case Ok(c) => Ok(SetCompression(c)) case Err(e) => Err(e), connect, alter)
  }

  function ColumnSetEncoding(arg: string, connect: Status, alter: Status): AlterRun {
    RunAlter(match ParseEncoding(arg) case Ok(e) => Ok(SetEncoding(e)) case Err(e) => Err(e), connect, alter)
  }

  function ColumnSetBlockSize(parsed: Option<int>, connect: Status, alter: Status): AlterRun {
    RunAlter(match ValidateBlockSize(parsed) case Ok(b) => Ok(SetBlockSize(b)) case Err(e) => Err(e), connect, alter)
  }

  /** A bad block size is refused with `InvalidArgument` before any client
      exists, whatever the cluster would have said; a positive 32-bit size is
      sent unchanged once a client connects. */
  lemma BlockSizeCheckedFirst(parsed: Option<int>, connect: Status, alter: Status)
    ensures var r := ColumnSetBlockSize(parsed, connect, alter);
      && (!(parsed.Some? && 0 < parsed.value <= Int32Max) ==>
            r.status == Error(InvalidArgument) && !r.clientAttempted && r.sent == None)
      && (parsed.Some? && 0 < parsed.value <= Int32Max && connect.OK? ==>
            r.sent == Some(SetBlockSize(parsed.value)) && r.status == alter)
  {
  }

  /** An unknown compression or encoding name is refused before any client
      exists; a known one, in any case, is sent once a client connects. */
  lemma StorageNamesCheckedFirst(arg: string, connect: Status, alter: Status)
    ensures var r := ColumnSetCompression(arg, connect, alter);
      && (ToUpper(arg) !in CompressionTypes ==> r.status == Error(InvalidArgument) && !r.clientAttempted)
      && (ToUpper(arg) in CompressionTypes && connect.OK? ==>
            r.sent == Some(SetCompression(CompressionTypes[ToUpper(arg)])))
    ensures var r := ColumnSetEncoding(arg, connect, alter);
      && (ToUpper(arg) !in EncodingTypes ==> r.status == Error(InvalidArgument) && !r.clientAttempted)
      && (ToUpper(arg) in EncodingTypes && connect.OK? ==>
            r.sent == Some(SetEncoding(EncodingTypes[ToUpper(arg)])))
  {
  }

  // ---------------------------------------------------------------------------
  // describe: range partitions

  /** A partition as `ListPartitions` reports it: its hash bucket per hash
      dimension and its range bounds. */
  datatype Partition = Partition(hashBuckets: seq<int>, rangeStart: string, rangeEnd: string)

  /** Every hash bucket is 0 (vacuously so without hash partitioning). */
  predicate InFirstBuckets(p: Partition) {
    forall i :: 0 <= i < |p.hashBuckets| ==> p.hashBuckets[i] == 0
  }

  /** The partitions `describe` prints a range for, in listing order: one
      per range partition, the one in hash bucket 0 of every dimension. */
  function RangePartitions(parts: seq<Partition>): (r: seq<Partition>)
    ensures |r| <= |parts|
    ensures forall i :: 0 <= i < |r| ==> InFirstBuckets(r[i])
  {
    if parts == [] then []
    else (if InFirstBuckets(parts[0]) then [parts[0]] else []) + RangePartitions(parts[1..])
  }

  /** The filter keeps a partition exactly when all its buckets are 0. */
  lemma {:induction false} RangePartitionsMembers(parts: seq<Partition>, x: Partition)
    ensures x in RangePartitions(parts) <==> x in parts && InFirstBuckets(x)
  {
    if parts != [] {
      RangePartitionsMembers(parts[1..], x);
      assert parts == [parts[0]] + parts[1..];
    }
  }

  /** The filter works partition by partition, so it keeps the listing order:
      filtering a concatenation concatenates the filtered parts. */
  lemma {:induction false} RangePartitionsAppend(a: seq<Partition>, b: seq<Partition>)
    ensures RangePartitions(a + b) == RangePartitions(a) + RangePartitions(b)
  {
    if a == [] {
      assert a + b == b;
    } else {
      assert (a + b)[1..] == a[1..] + b;
      RangePartitionsAppend(a[1..], b);
    }
  }

  /** The loop in `DescribeTable` that skips partitions with a non-zero
      bucket (`std::all_of` over the buckets). */
  method DescribePartitions(parts: seq<Partition>) returns (kept: seq<Partition>)
    ensures kept == RangePartitions(parts)
  {
    kept := [];
    var i := 0;
    while i < |parts|
      invariant 0 <= i <= |parts|
      invariant kept == RangePartitions(parts[..i])
    {
      var buckets := parts[i].hashBuckets;
      var allZero := true;
      var j := 0;
      while j < |buckets|
        invariant 0 <= j <= |buckets|
        invariant allZero <==> forall k :: 0 <= k < j ==> buckets[k] == 0
      {
        if buckets[j] != 0 {
          allZero := false;
        }
        j := j + 1;
      }
      RangePartitionsAppend(parts[..i], [parts[i]]);
      assert parts[..i + 1] == parts[..i] + [parts[i]];
      if allZero {
        kept := kept + [parts[i]];
      }
      i := i + 1;
    }
    assert parts[..i] == parts;
  }

  // ---------------------------------------------------------------------------
  // list: replica roles

  /** The letter `list --list_tablets` prints for a replica: leader, else
      voter, else non-voter. */
  function RoleLetter(isLeader: bool, isVoter: bool): (r: string)
    ensures r == "L" <==> isLeader
    ensures r == "V" <==> !isLeader && isVoter
    ensures r == "N" <==> !isLeader && !isVoter
  {
    if isLeader then "L" else if isVoter then "V" else "N"
  }

  // ---------------------------------------------------------------------------
  // copy: destination

  /** How `copy` reaches the destination: whether it reuses the source
      client, and which table it writes to. */
  datatype CopyPlan = CopyPlan(reuseClient: bool, dstTable: string)

  /** The source client is reused when both master address lists are the
      same string; an empty `--dst_table` means the source table's name. */
  function PlanCopy(srcMasters: string, dstMasters: string, srcTable: string, dstTableFlag: string): (r: CopyPlan)
    ensures r.reuseClient <==> srcMasters == dstMasters
    ensures dstTableFlag == "" ==> r.dstTable == srcTable
    ensures dstTableFlag != "" ==> r.dstTable == dstTableFlag
    ensures r.dstTable == "" <==> srcTable == "" && dstTableFlag == ""
  {
    CopyPlan(srcMasters == dstMasters, if dstTableFlag == "" then srcTable else dstTableFlag)
  }

  /** With the same masters, `copy` writes into its own source table exactly
      when `--dst_table` is empty or names the source table. */
  lemma CopyOntoItself(masters: string, srcTable: string, dstTableFlag: string)
    ensures var r := PlanCopy(masters, masters, srcTable, dstTableFlag);
      r.reuseClient && (r.dstTable == srcTable <==> dstTableFlag == "" || dstTableFlag == srcTable)
  {
  }
}

=== FILE: table_rows.dfy ===
/** Turning JSON arguments into typed column values: the default value of
    `column_set_default` (`ParseValueOfType`) and the primary key of
    `locate_row`. The JSON text is taken as already parsed: `JsonReader` is
    not part of this model, and its typed extractors are modelled as the
    type tests they perform. */
module TableRows {
  import opened KuduStatus

  /** A parsed JSON value. A number written without a fraction or exponent
      keeps its value; any other number (`1.0`, `1e2` included) is an opaque
      tag, since floating point is not modelled. */
  datatype Json =
    | JNull
    | JBool(b: bool)
    | JInt(i: int)
    | JReal
    | JString(s: string)
    | JArray(items: seq<Json>)
    | JObject

  /** `KuduColumnSchema::DataType`; `Other` stands for any type this tool
      does not list. */
  datatype DataType =
    | Int8 | Int16 | Int32 | Int64 | UnixtimeMicros
    | String | Binary
    | Bool
    | Float | Double
    | Decimal
    | Other(id: nat)

  /** The value a column is set to or compared with (`KuduValue`). */
  datatype Value = IntValue(i: int) | StringValue(s: string) | BoolValue(b: bool) | FloatingValue

  const Int64Min := -0x8000_0000_0000_0000
  const Int64Max := 0x7FFF_FFFF_FFFF_FFFF

  /** The types read through `ExtractInt64` into `KuduValue::FromInt`. */
  predicate IsIntegerType(t: DataType) {
    t.Int8? || t.Int16? || t.Int32? || t.Int64? || t.UnixtimeMicros?
  }

  /** The types read through `ExtractString` into `KuduValue::CopyString`. */
  predicate IsStringType(t: DataType) {
    t.String? || t.Binary?
  }

  /** The types the tool can read a value for at all. */
  predicate IsSupported(t: DataType) {
    !t.Decimal? && !t.Other?
  }

  /** The value of type `t` held by one JSON element. A JSON value of the
      wrong kind is an invalid argument; DECIMAL and unlisted types are not
      supported, whatever the value. Integer columns of every width take any
      64-bit integer here: narrower ranges are checked outside this function. */
  function ValueOfType(t: DataType, v: Json): (r: Result<Value>)
    ensures !IsSupported(t) ==> r == Err(NotSupported)
    ensures IsSupported(t) && r.Err? ==> r.code == InvalidArgument
    ensures IsIntegerType(t) ==> (r.Ok? <==> v.JInt? && Int64Min <= v.i <= Int64Max)
    ensures IsStringType(t) ==> (r.Ok? <==> v.JString?)
    ensures t.Bool? ==> (r.Ok? <==> v.JBool?)
    ensures t.Float? || t.Double? ==> (r.Ok? <==> v.JReal?)
    ensures r.Ok? ==> ToJson(r.value) == v
    ensures r.Ok? && IsIntegerType(t) ==> r.value.IntValue? && Int64Min <= r.value.i <= Int64Max
    ensures r.Ok? && IsStringType(t) ==> r.value.StringValue?
    ensures r.Ok? && t.Bool? ==> r.value.BoolValue?
  {
    match t
    case Int8 | Int16 | Int32 | Int64 | UnixtimeMicros =>
      if v.JInt? && Int64Min <= v.i <= Int64Max then Ok(IntValue(v.i)) else Err(InvalidArgument)
    case String | Binary =>
      if v.JString? then Ok(StringValue(v.s)) else Err(InvalidArgument)
    case Bool =>
      if v.JBool? then Ok(BoolValue(v.b)) else Err(InvalidArgument)
    case Float | Double =>
      if v.JReal? then Ok(FloatingValue) else Err(InvalidArgument)
    case Decimal => Err(NotSupported)
    case Other(_) => Err(NotSupported)
  }

  /** The JSON a user writes for a value: the inverse of `ValueOfType`. */
  function ToJson(v: Value): Json {
    match v
    case IntValue(i) => JInt(i)
    case StringValue(s) => JString(s)
    case BoolValue(b) => JBool(b)
    case FloatingValue => JReal
  }

  /** A value of the column's kind, written as JSON, reads back as itself. */
  predicate Fits(t: DataType, v: Value) {
    || (IsIntegerType(t) && v.IntValue? && Int64Min <= v.i <= Int64Max)
    || (IsStringType(t) && v.StringValue?)
    || (t.Bool? && v.BoolValue?)
    || ((t.Float? || t.Double?) && v.FloatingValue?)
  }

  lemma ValueOfTypeRoundTrip(t: DataType, v: Value)
    ensures Fits(t, v) <==> ValueOfType(t, ToJson(v)) == Ok(v)
  {
  }

  /** The JSON elements of the argument: `ExtractObjectArray` on the root,
      which must be an array. */
  function ElementsOf(doc: Result<Json>): (r: Result<seq<Json>>)
    ensures doc.Err? ==> r == Err(doc.code)
    ensures doc.Ok? ==> (r.Ok? <==> doc.value.JArray?)
    ensures doc.Ok? && r.Err? ==> r.code == InvalidArgument
    ensures r.Ok? ==> JArray(r.value) == doc.value
  {
    match doc
    case Err(c) => Err(c)
    case Ok(JArray(items)) => Ok(items)
    case Ok(_) => Err(InvalidArgument)
  }

  /** `ParseValueOfType`: the default value must be a JSON array of exactly
      one element, checked before the type; then the element is read as the
      column's type. */
  function ParseValueOfType(doc: Result<Json>, t: DataType): (r: Result<Value>)
    ensures doc.Err? ==> r == Err(doc.code)
    ensures doc.Ok? && !doc.value.JArray? ==> r == Err(InvalidArgument)
    ensures doc.Ok? && doc.value.JArray? && |doc.value.items| != 1 ==> r == Err(InvalidArgument)
    ensures doc.Ok? && doc.value.JArray? && |doc.value.items| == 1 ==>
      r == ValueOfType(t, doc.value.items[0])
    ensures r.Ok? ==> doc.Ok? && doc.value.JArray? && |doc.value.items| == 1
  {
    match ElementsOf(doc)
    case Err(c) => Err(c)
    case Ok(values) =>
      if |values| != 1 then Err(InvalidArgument) else ValueOfType(t, values[0])
  }

  /** The outcomes the tool promises for `column_set_default`: a count other
      than one is invalid for every type; a single element of a DECIMAL or
      unlisted column is not supported; integer types give an integer, the
      two string types a string; and a fitting value written as a one-element
      array is read back exactly. */
  lemma ParseValueOfTypeOutcomes(items: seq<Json>, t: DataType, v: Value)
    ensures |items| != 1 ==> ParseValueOfType(Ok(JArray(items)), t) == Err(InvalidArgument)
    ensures |items| == 1 && !IsSupported(t) ==> ParseValueOfType(Ok(JArray(items)), t) == Err(NotSupported)
    ensures var r := ParseValueOfType(Ok(JArray(items)), t);
      r.Ok? ==> (IsIntegerType(t) ==> r.value.IntValue?) && (IsStringType(t) ==> r.value.StringValue?)
    ensures Fits(t, v) ==> ParseValueOfType(Ok(JArray([ToJson(v)])), t) == Ok(v)
  {
  }

  // ---------------------------------------------------------------------------
  // locate_row

  datatype Column = Column(name: string, ctype: DataType)

  /** An equality predicate on one column (`NewComparisonPredicate(EQUAL)`). */
  datatype Predicate = Equal(column: string, value: Value)

  /** One equality predicate per primary-key column, reading the key values
      in order and stopping at the first column whose value cannot be read. */
  function KeyPredicates(cols: seq<Column>, vals: seq<Json>): (r: Result<seq<Predicate>>)
    requires |cols| == |vals|
    ensures r.Ok? <==> forall i :: 0 <= i < |cols| ==> ValueOfType(cols[i].ctype, vals[i]).Ok?
    ensures r.Ok? ==> (
      && |r.value| == |cols|
      && forall i :: 0 <= i < |cols| ==>
           r.value[i] == Equal(cols[i].name, ValueOfType(cols[i].ctype, vals[i]).value))
    decreases |cols|
  {
    if cols == [] then Ok([])
    else
      match ValueOfType(cols[0].ctype, vals[0])
      case Err(c) => Err(c)
      case Ok(v) =>
        match KeyPredicates(cols[1..], vals[1..])
        case Err(c) => Err(c)
        case Ok(ps) => Ok([Equal(cols[0].name, v)] + ps)
  }

  /** The error of `KeyPredicates` is the one of the first key column whose
      value cannot be read. */
  lemma {:induction false} KeyPredicatesFirstError(cols: seq<Column>, vals: seq<Json>, k: int)
    requires |cols| == |vals| && FirstBadKey(cols, vals, k)
    ensures KeyPredicates(cols, vals) == Err(ValueOfType(cols[k].ctype, vals[k]).code)
    decreases |cols|
  {
    if k > 0 {
      assert ValueOfType(cols[0].ctype, vals[0]).Ok?;
      assert FirstBadKey(cols[1..], vals[1..], k - 1) by {
        forall i | 0 <= i < k - 1
          ensures ValueOfType(cols[1..][i].ctype, vals[1..][i]).Ok?
        {
          assert cols[1..][i] == cols[i + 1] && vals[1..][i] == vals[i + 1];
        }
      }
      KeyPredicatesFirstError(cols[1..], vals[1..], k - 1);
    }
  }

  /** Column `k` is the first key column whose value cannot be read. */
  predicate FirstBadKey(cols: seq<Column>, vals: seq<Json>, k: int)
    requires |cols| == |vals|
  {
    && 0 <= k < |cols|
    && ValueOfType(cols[k].ctype, vals[k]).Err?
    && forall i :: 0 <= i < k ==> ValueOfType(cols[i].ctype, vals[i]).Ok?
  }

  /** The token-count check: a key lies in at most one tablet. */
  function PickTablet(tablets: seq<string>): (r: Result<string>)
    ensures |tablets| == 0 <==> r == Err(NotFound)
    ensures |tablets| > 1 <==> r == Err(IllegalState)
    ensures r.Ok? <==> |tablets| == 1
    ensures r.Ok? ==> tablets == [r.value]
  {
    if |tablets| == 0 then Err(NotFound)
    else if |tablets| > 1 then Err(IllegalState)
    else Ok(tablets[0])
  }

  /** The `--check_row_existence` check: the leader must return exactly one
      row for the key. */
  function CheckRowExists(rows: seq<string>): (r: Status)
    ensures |rows| == 0 <==> r == Error(NotFound)
    ensures |rows| > 1 <==> r == Error(IllegalState)
    ensures |rows| == 1 <==> r == OK
  {
    if |rows| == 0 then Error(NotFound)
    else if |rows| != 1 then Error(IllegalState)
    else OK
  }

  /** `LocateRow`. `opening` is what creating the client and opening the table
      reported, `keyColumns` the table's primary-key columns in key order,
      `key` the parsed argument, `scan` the tablets whose scan tokens match a
      set of predicates (or the error building them reports), and `rows`
      what scanning the leader returned. The result is the tablet id. */
  function LocateRow(opening: Status, keyColumns: seq<Column>, key: Result<Json>,
                     scan: seq<Predicate> -> Result<seq<string>>,
                     checkRowExistence: bool, rows: Result<seq<string>>): (r: Result<string>)
    ensures opening.Error? ==> r == Err(opening.code)
    ensures opening.OK? && key.Ok? && key.value.JArray? && |key.value.items| != |keyColumns| ==>
      r == Err(InvalidArgument)
    ensures r.Ok? ==>
      && key.Ok? && key.value.JArray? && |key.value.items| == |keyColumns|
      && KeyPredicates(keyColumns, key.value.items).Ok?
      && scan(KeyPredicates(keyColumns, key.value.items).value) == Ok([r.value])
      && (checkRowExistence ==> rows.Ok? && |rows.value| == 1)
  {
    if opening.Error? then Err(opening.code)
    else
      match ElementsOf(key)
      case Err(c) => Err(c)
      case Ok(values) =>
        if |values| != |keyColumns| then Err(InvalidArgument)
        else
          match KeyPredicates(keyColumns, values)
          case Err(c) => Err(c)
          case Ok(preds) =>
            match scan(preds)
            case Err(c) => Err(c)
            case Ok(tablets) =>
              match PickTablet(tablets)
              case Err(c) => Err(c)
              case Ok(tablet) =>
                if !checkRowExistence then Ok(tablet)
                else
                  match rows
                  case Err(c) => Err(c)
                  case Ok(found) =>
                    match CheckRowExists(found)
                    case Error(c) => Err(c)
                    case OK => Ok(tablet)
  }

  /** With the right number of key values, a DECIMAL (or unlisted) key column
      is refused as not supported once every key value before it is read,
      without consulting the cluster's tablets. */
  lemma DecimalKeyNotSupported(keyColumns: seq<Column>, items: seq<Json>, k: nat,
                               scan: seq<Predicate> -> Result<seq<string>>,
                               checkRowExistence: bool, rows: Result<seq<string>>)
    requires |items| == |keyColumns| && k < |keyColumns| && !IsSupported(keyColumns[k].ctype)
    requires forall i :: 0 <= i < k ==> ValueOfType(keyColumns[i].ctype, items[i]).Ok?
    ensures LocateRow(OK, keyColumns, Ok(JArray(items)), scan, checkRowExistence, rows) == Err(NotSupported)
  {
    KeyPredicatesFirstError(keyColumns, items, k);
  }

  /** When every key value reads, the predicates are exactly the equalities
      of the key columns with those values, and the tablet reported is the
      single one the scan tokens name; no token or several are errors. With
      `--check_row_existence`, that tablet is reported exactly when the
      leader returns one row; no row is NotFound, several IllegalState, and
      a failed scan passes its error on. */
  lemma LocateRowTokens(keyColumns: seq<Column>, items: seq<Json>,
                        scan: seq<Predicate> -> Result<seq<string>>,
                        checkRowExistence: bool, rows: Result<seq<string>>)
    requires |items| == |keyColumns|
    requires forall i :: 0 <= i < |keyColumns| ==> ValueOfType(keyColumns[i].ctype, items[i]).Ok?
    ensures var ps := KeyPredicates(keyColumns, items);
      && ps.Ok?
      && (forall i :: 0 <= i < |keyColumns| ==> ps.value[i].column == keyColumns[i].name)
      && var r := LocateRow(OK, keyColumns, Ok(JArray(items)), scan, checkRowExistence, rows);
      && (scan(ps.value).Err? ==> r == Err(scan(ps.value).code))
      && (scan(ps.value) == Ok([]) ==> r == Err(NotFound))
      && (scan(ps.value).Ok? && |scan(ps.value).value| > 1 ==> r == Err(IllegalState))
      && (scan(ps.value).Ok? && |scan(ps.value).value| == 1 ==>
            var t := scan(ps.value).value[0];
            && (!checkRowExistence ==> r == Ok(t))
            && (checkRowExistence && rows.Err? ==> r == Err(rows.code))
            && (checkRowExistence && rows.Ok? ==> (r == Ok(t) <==> |rows.value| == 1))
            && (checkRowExistence && rows == Ok([]) ==> r == Err(NotFound))
            && (checkRowExistence && rows.Ok? && |rows.value| > 1 ==> r == Err(IllegalState)))
  {
  }
}
